=== FILE: README.md ===
# Class definitions and paired XML namespaces

This project is a Dafny model of two records from a library that reads and writes Android
binary formats.

- **`ClassId`** is the DEX `class_def_item`. It is a 32-byte record of eight little-endian
  32-bit words:
  - the class type, superclass and source file, which are *index* references into the type
    and string sections;
  - the access flags, a plain integer;
  - the interface list, annotations directory, class data and static values, which are
    *offset* references into their sections.

  The model covers:
  - the record's getters and setters;
  - `refresh()`, which writes every reference's target back as the integer that locates it;
  - `cacheItems()`, which resolves every reference once;
  - the 32-byte encoding;
  - the two text renderers: the smali `append` and `toString`.
- **`ResXmlNamespace`** is a start- or end-namespace chunk of binary XML. Such chunks come in
  twins: setting the uri or prefix reference on one also sets it on its twin, and `setPair`
  links the twin back.

Modules:

| module | file | contents |
|---|---|---|
| `Wrappers` | `wrappers.dfy` | `Option`, `Result` |
| `Words` | `words.dfy` | signed 32-bit little-endian words; decimal text of integers |
| `ClassLayout` | `class_layout.dfy` | the slot table: offset and addressing of each word |
| `Reference` | `reference.dfy` | index and offset references: stored integer plus cached item |
| `DexItems` | `dex_items.dfy` | the referenced items (type ids, strings, type lists, …) and their sections |
| `ClassId` | `class_id.dfy` | the record, its getters and setters, `refresh`, `cacheItems` |
| `ClassCodec` | `class_codec.dfy` | reading and writing the 32 bytes |
| `ClassRender` | `class_render.dfy` | `append` and `toString` as token streams |
| `XmlNamespace` | `xml_namespace.dfy` | namespace twins over an arena of chunks |

### How references are modelled

`ItemIndexReference` and `ItemOffsetReference` are not part of this model. Their behaviour is
defined in `Reference` as follows:

- A reference holds the stored integer and, optionally, the key of the item it has cached.
  The stored integer is an unbounded `int`. It is a signed 32-bit value after the record is
  read from bytes, and after `setItem` or `refresh()` on a well-formed section.
- `getItem()` returns the live item with the cached key. When nothing is cached, it returns
  the item the stored integer locates:
  - an index reference uses the position in the section;
  - an offset reference uses the item's file offset, and offset 0 means "none".
- `setItem(null)` stores -1 for an index reference and 0 for an offset reference.
- `setItem(x)` stores `x`'s index or offset and caches `x`.
- `refresh()` is `setItem(getItem())`.

`getItem()` has a side effect: a reference with nothing cached caches the record it returns.
- `Reference.Get` is the item returned; `Reference.Cache` is the reference afterwards.
- At the record level, every getter (`ClassId.GetClassType` and the rest) returns the item,
  and `ClassId.Touch` is the record the getter leaves behind.
- `ClassRender.AppendRecord` and `ClassRender.ToStringRecord` are the records `append` and
  `toString` leave behind, after the getters they call.

Once cached, a reference follows its record instead of a position
(`Reference.CacheFollowsItemExample`).

A section is a sequence of items, each with an identity key, a file offset and a payload.
The setters' round trips hold for *well-formed* sections: keys and offsets are distinct, and
offsets lie in (0, 2^31).

### Rendering

Both renderers are modelled as token streams over the record's resolved references:

- `Lit(k)` is a fixed text (`KeywordText(k)` gives its characters);
- `NewLine` is the writer's line break;
- the text that other writers produce is an opaque token. These are type descriptors, string
  data, annotation sets, class data and access-flag keywords.

A null dereference in `append` is modelled as a `Failure` carrying the slot and the tokens
written up to that point.

### Behaviour worth noting

- `setClassType(null)` is accepted: it stores -1 like every other index setter.
- `append` dereferences the class type and the superclass without a null check. With no
  superclass set it stops right after writing `.super ` (`ClassRender.UnsetSuperclassExample`).
- `a.setPair(b)` when `b` is already the twin of `c` links `b` to `a` but leaves `c`'s link
  to `b`, so the links stop being reciprocated (`XmlNamespace.SetPairLeavesOldTwin`). A later
  write then goes beyond one hop. From `c` it writes `c`, then `b`, then `a`, and `a` is not
  `c`'s twin (`XmlNamespace.OneSidedChainExample`).
  `setPair(null)` likewise leaves the former twin's link (`XmlNamespace.ClearLeavesBackLink`).
- For a resolved but empty interface list, `toString` prints the `# interfaces` header and
  `append` does not (`ClassRender.EmptyInterfacesDiffer`).

## Model

| member | source | states |
|---|---|---|
| ClassLayout.FieldOffsets | src/main/java/com/reandroid/dex/index/ClassId.java:40-49 | the running `offset += 4` from -4 gives the i-th field offset 4·i |
| ClassLayout.LayoutMatchesFormat | src/main/java/com/reandroid/dex/index/ClassId.java:38-50 | every slot's constructor offset equals its `class_def_item` offset and lies inside the record |
| ClassLayout.SlotsDisjoint | src/main/java/com/reandroid/dex/index/ClassId.java:39-49 | distinct slots occupy disjoint 4-byte ranges, and eight words fill the record exactly |
| ClassLayout.SlotAt | src/main/java/com/reandroid/dex/index/ClassId.java:223 | each of the SIZE = 32 bytes lies in the word of some slot |
| ClassLayout.ReferenceSlotsInDeclarationOrder | src/main/java/com/reandroid/dex/index/ClassId.java:131-139 | refresh and cacheItems visit the seven references in declaration order, skipping the access flags |
| Words.WordRoundTrip | src/main/java/com/reandroid/dex/index/ClassId.java:42-49 | a signed 32-bit value written as a little-endian word reads back unchanged |
| Words.ReadWordRoundTrip | src/main/java/com/reandroid/dex/index/ClassId.java:42-49 | any four bytes read as a word and written back are unchanged |
| Words.DecimalRoundTrip | src/main/java/com/reandroid/dex/index/ClassId.java:193 | an integer's decimal text, as string concatenation produces it, reads back as that integer |
| Reference.Resolve | src/main/java/com/reandroid/dex/index/ClassId.java:29-36 | an index reference finds the item at that position exactly when it is in range; an offset reference finds the item at that offset, and 0 finds nothing |
| Reference.Get | src/main/java/com/reandroid/dex/index/ClassId.java:60-62 | a cached item is returned while it is still in its section, otherwise nothing; an uncached reference resolves its stored integer |
| Reference.Set | src/main/java/com/reandroid/dex/index/ClassId.java:63-65 | null stores -1 (index) or 0 (offset); an item stores its index or offset and is cached |
| Reference.SetThenGet | src/main/java/com/reandroid/dex/index/ClassId.java:60-65 | on a well-formed section, `getItem()` after `setItem(x)` returns `x` |
| Reference.RefreshKeepsTarget | src/main/java/com/reandroid/dex/index/ClassId.java:131-139 | refreshing a reference does not change what it returns |
| Reference.RefreshRestamps | src/main/java/com/reandroid/dex/index/ClassId.java:131-139 | after a refresh the stored integer alone locates the reference's target |
| Reference.RefreshIdempotent | src/main/java/com/reandroid/dex/index/ClassId.java:131-139 | refreshing twice equals refreshing once |
| Reference.RefreshForgetsRemoved | src/main/java/com/reandroid/dex/index/ClassId.java:131-139 | a reference whose cached item was removed refreshes to the "none" integer |
| Reference.Cache | src/main/java/com/reandroid/dex/index/ClassId.java:141-149 | an empty cache takes exactly the record `getItem()` returns; a filled cache, or a null answer, leaves the reference as it was; the stored integer is never written |
| Reference.Refresh | src/main/java/com/reandroid/dex/index/ClassId.java:131-139 | `setItem(getItem())`: the reference caches its former target, or stores the null sentinel when there is none; on a well-formed section the integer fits 32 bits |
| Reference.CacheKeepsTarget | src/main/java/com/reandroid/dex/index/ClassId.java:141-149 | resolving a reference writes no integer and does not change its target |
| Reference.CacheFollowsItem | src/main/java/com/reandroid/dex/index/ClassId.java:60-62 | once `getItem()` has cached its answer, the reference finds that record or nothing in any later state of the section, never another record |
| Reference.CacheFollowsItemExample | src/main/java/com/reandroid/dex/index/ClassId.java:60-62 | an index reference read once still finds its record after another is inserted before it; one never read finds the newcomer |
| ClassId.GetClassType | src/main/java/com/reandroid/dex/index/ClassId.java:60-62 | the type at the stored index, or while cached the cached type as long as it is in the section |
| ClassId.GetSuperClass | src/main/java/com/reandroid/dex/index/ClassId.java:72-74 | the type at the stored index, or while cached the cached type as long as it is in the section |
| ClassId.GetSourceFile | src/main/java/com/reandroid/dex/index/ClassId.java:78-80 | the string at the stored index, or while cached the cached string as long as it is in the section |
| ClassId.GetInterfaces | src/main/java/com/reandroid/dex/index/ClassId.java:91-93 | the type list at the stored offset (none for 0), or while cached the cached list as long as it is in the section |
| ClassId.GetAnnotationsDirectory | src/main/java/com/reandroid/dex/index/ClassId.java:104-106 | the directory at the stored offset (none for 0), or while cached the cached directory as long as it is in the section |
| ClassId.GetClassData | src/main/java/com/reandroid/dex/index/ClassId.java:110-112 | the class data at the stored offset (none for 0), or while cached the cached class data as long as it is in the section |
| ClassId.GetStaticValues | src/main/java/com/reandroid/dex/index/ClassId.java:116-118 | the encoded array at the stored offset (none for 0), or while cached the cached array as long as it is in the section |
| ClassId.Touch | src/main/java/com/reandroid/dex/index/ClassId.java:60-62 | after a getter, the reference caches what the getter returned; nothing else changes, and nothing at all when it returned null |
| ClassId.TouchFollowsItem | src/main/java/com/reandroid/dex/index/ClassId.java:60-62 | after a getter, the slot finds the record the getter returned, or nothing, however the sections change later |
| ClassId.GetName | src/main/java/com/reandroid/dex/index/ClassId.java:52-58 | the name is absent exactly when the class type is, and is otherwise the class type's name |
| ClassId.GetInterfaceTypeIds | src/main/java/com/reandroid/dex/index/ClassId.java:84-90 | absent exactly when the interface list is; otherwise the list's type ids |
| ClassId.GetClassAnnotations | src/main/java/com/reandroid/dex/index/ClassId.java:97-103 | absent without a directory; otherwise the directory's class annotations |
| ClassId.GetStaticValue | src/main/java/com/reandroid/dex/index/ClassId.java:119-125 | absent without static values; otherwise element `i` of the encoded array |
| ClassId.SetClassType | src/main/java/com/reandroid/dex/index/ClassId.java:63-65 | only the class-type slot changes; the getter returns the new type; null stores -1 |
| ClassId.SetSuperClass | src/main/java/com/reandroid/dex/index/ClassId.java:75-77 | only the superclass slot changes; the getter returns the new type; null stores -1 |
| ClassId.SetSourceFile | src/main/java/com/reandroid/dex/index/ClassId.java:81-83 | only the source-file slot changes; the getter returns the new string; null stores -1 |
| ClassId.SetInterfaces | src/main/java/com/reandroid/dex/index/ClassId.java:94-96 | only the interfaces slot changes; the getter returns the new list; null stores 0 |
| ClassId.SetAnnotationsDirectory | src/main/java/com/reandroid/dex/index/ClassId.java:107-109 | only the annotations slot changes; the getter returns the new directory; null stores 0 |
| ClassId.SetClassData | src/main/java/com/reandroid/dex/index/ClassId.java:113-115 | only the class-data slot changes; the getter returns the new class data; null stores 0 |
| ClassId.SetStaticValues | src/main/java/com/reandroid/dex/index/ClassId.java:126-128 | only the static-values slot changes; the getter returns the new array; null stores 0 |
| ClassId.NameAfterSetClassType | src/main/java/com/reandroid/dex/index/ClassId.java:52-65 | after `setClassType(t)` the name is `t`'s name, or absent for null |
| ClassId.InterfaceTypeIdsAfterSetInterfaces | src/main/java/com/reandroid/dex/index/ClassId.java:84-96 | after `setInterfaces(l)` the interface types are `l`'s, or absent for null |
| ClassId.StaticValueAfterSetStaticValues | src/main/java/com/reandroid/dex/index/ClassId.java:116-128 | after `setStaticValues(a)`, value `i` is `a`'s element `i`, absent when `i` is out of its range, and absent for null |
| ClassId.SweepPointwise | src/main/java/com/reandroid/dex/index/ClassId.java:131-149 | a sweep over distinct slots touches each listed slot once, with its own step, and nothing else |
| ClassId.Refresh | src/main/java/com/reandroid/dex/index/ClassId.java:131-139 | the flags are untouched; every reference keeps its target; its stored integer alone now locates that target and fits 32 bits |
| ClassId.RefreshIdempotent | src/main/java/com/reandroid/dex/index/ClassId.java:131-139 | refreshing the record twice equals refreshing it once |
| ClassId.CacheItems | src/main/java/com/reandroid/dex/index/ClassId.java:141-149 | no stored integer changes and no target changes; a reference is cached afterwards exactly when it was before or its integer resolved |
| ClassCodec.Encode | src/main/java/com/reandroid/dex/index/ClassId.java:38-50 | the record is 32 bytes, with each slot's stored integer as a little-endian word at the slot's offset |
| ClassCodec.DecodeEncode | src/main/java/com/reandroid/dex/index/ClassId.java:38-50 | writing a record and reading it back yields its stored integers, with nothing cached |
| ClassCodec.EncodeDecode | src/main/java/com/reandroid/dex/index/ClassId.java:38-50 | any 32 bytes read and written back are unchanged |
| ClassCodec.OnlyOwnSlotBytesDiffer | src/main/java/com/reandroid/dex/index/ClassId.java:39-49 | records that differ in one slot differ in that slot's four bytes at most |
| ClassCodec.SetClassTypeBytes | src/main/java/com/reandroid/dex/index/ClassId.java:63-65 | `setClassType` changes only bytes 0 to 3 of the record |
| ClassCodec.SetSuperClassBytes | src/main/java/com/reandroid/dex/index/ClassId.java:75-77 | `setSuperClass` changes only bytes 8 to 11 of the record |
| ClassCodec.SetInterfacesBytes | src/main/java/com/reandroid/dex/index/ClassId.java:94-96 | `setInterfaces` changes only bytes 12 to 15 of the record |
| ClassCodec.SetSourceFileBytes | src/main/java/com/reandroid/dex/index/ClassId.java:81-83 | `setSourceFile` changes only bytes 16 to 19 of the record |
| ClassCodec.SetAnnotationsDirectoryBytes | src/main/java/com/reandroid/dex/index/ClassId.java:107-109 | `setAnnotationsDirectory` changes only bytes 20 to 23 of the record |
| ClassCodec.SetClassDataBytes | src/main/java/com/reandroid/dex/index/ClassId.java:113-115 | `setClassData` changes only bytes 24 to 27 of the record |
| ClassCodec.SetStaticValuesBytes | src/main/java/com/reandroid/dex/index/ClassId.java:126-128 | `setStaticValues` changes only bytes 28 to 31 of the record |
| ClassCodec.Decode | src/main/java/com/reandroid/dex/index/ClassId.java:38-50 | a record read from 32 bytes holds in every slot the signed word at that slot's offset, with nothing cached |
| ClassCodec.AccessFlagsWord | src/main/java/com/reandroid/dex/index/ClassId.java:66-68 | `getAccessFlagValue()` is the signed little-endian word at bytes 4 to 7, both when reading and when writing |
| ClassCodec.EmptyIsZeroed | src/main/java/com/reandroid/dex/index/ClassId.java:38-39 | a new record is 32 zero bytes |
| ClassCodec.RefreshThenSerialize | src/main/java/com/reandroid/dex/index/ClassId.java:131-139 | after `refresh()` the record can be written, and reading the bytes back finds every reference's former target |
| ClassRender.ImplementsLines | src/main/java/com/reandroid/dex/index/ClassId.java:174-178 | each interface contributes a line break, `.implements ` and the type |
| ClassRender.ImplementedLinesRoundTrip | src/main/java/com/reandroid/dex/index/ClassId.java:174-178 | the interface types can be read back, in order, from the `.implements` lines |
| ClassRender.Append | src/main/java/com/reandroid/dex/index/ClassId.java:151-195 | fails exactly when `getClassType()` or `getSuperClass()` is null, at the first of the two; otherwise the `.implements` types are the getter's list, and the source file, annotation set and class data written are exactly what the getters return |
| ClassRender.AppendView | src/main/java/com/reandroid/dex/index/ClassId.java:152-163 | rendering fails exactly when the class type or superclass is unset, naming that slot; otherwise it opens with the `.class` and `.super` lines |
| ClassRender.AppendSourceLine | src/main/java/com/reandroid/dex/index/ClassId.java:164-169 | `.source` is written exactly when the source file resolves, and the string data written is the resolved one |
| ClassRender.AppendInterfacesHeader | src/main/java/com/reandroid/dex/index/ClassId.java:170-179 | `# interfaces` is written exactly when the interface list resolves and is non-empty |
| ClassRender.AppendImplements | src/main/java/com/reandroid/dex/index/ClassId.java:170-179 | the `.implements` lines of the whole output name exactly the interface list, in order |
| ClassRender.AppendAnnotations | src/main/java/com/reandroid/dex/index/ClassId.java:180-186 | `# annotations` is written exactly when the class annotations resolve, and the annotation set written is the resolved one |
| ClassRender.AppendClassData | src/main/java/com/reandroid/dex/index/ClassId.java:187-191 | class data is written exactly when it resolves, and what is written is the resolved class data |
| ClassRender.AppendNullClassDataComment | src/main/java/com/reandroid/dex/index/ClassId.java:188-194 | the "Null class data" comment is written exactly when the class data does not resolve |
| ClassRender.NullClassDataComment | src/main/java/com/reandroid/dex/index/ClassId.java:192-194 | that comment comes last, and the stored class-data offset reads back from its decimal text |
| ClassRender.ToString | src/main/java/com/reandroid/dex/index/ClassId.java:196-220 | the interfaces header appears exactly when `getInterfaces()` is non-null, the quoted source exactly when `getSourceFile()` is, and no annotations, class data or comment appear |
| ClassRender.ToStringInterfacesHeader | src/main/java/com/reandroid/dex/index/ClassId.java:212-218 | `toString` prints the interfaces header exactly when the list resolves, even if it is empty |
| ClassRender.ToStringSourceLine | src/main/java/com/reandroid/dex/index/ClassId.java:207-210 | `toString` quotes the source file exactly when it resolves |
| ClassRender.ToStringOmitsBody | src/main/java/com/reandroid/dex/index/ClassId.java:196-220 | `toString` shows no annotations, class data or comment |
| ClassRender.EmptyInterfacesDiffer | src/main/java/com/reandroid/dex/index/ClassId.java:169-218 | on an empty interface list, `toString` prints the header and `append` does not |
| ClassRender.UnsetSuperclassExample | src/main/java/com/reandroid/dex/index/ClassId.java:151-195 | with no superclass, `append` stops after `.super `; with one, it runs to the final class-data comment |
| ClassRender.AppendRecord | src/main/java/com/reandroid/dex/index/ClassId.java:151-195 | after `append`, each reference it read (up to a null dereference) is as its getter leaves it, and the others are untouched |
| ClassRender.ToStringRecord | src/main/java/com/reandroid/dex/index/ClassId.java:196-220 | after `toString`, the class type, superclass, source file and interfaces are as their getters leave them, and the others are untouched |
| ClassRender.AppendCachesLikeCacheItems | src/main/java/com/reandroid/dex/index/ClassId.java:141-195 | a successful `append` fills the same caches as `cacheItems()`, except the static values, which it never reads |
| ClassRender.FullReadCachesLikeCacheItems | src/main/java/com/reandroid/dex/index/ClassId.java:141-195 | when both header types resolve, the six references `append` reads end up as `cacheItems()` leaves them |
| ClassRender.SameTargetsSameView | src/main/java/com/reandroid/dex/index/ClassId.java:151-220 | records whose references resolve alike, with the same flags and class-data integer, render alike |
| ClassRender.AppendAgain | src/main/java/com/reandroid/dex/index/ClassId.java:151-195 | `append` changes no stored integer, and a second `append` writes what the first wrote |
| ClassRender.ToStringAgain | src/main/java/com/reandroid/dex/index/ClassId.java:196-220 | `toString` changes no stored integer, and a second `toString` prints what the first printed |
| XmlNamespace.GetPair | src/main/java/com/reandroid/lib/arsc/chunk/xml/ResXmlNamespace.java:52-54 | in a symmetric arena the twin returned links back to this chunk |
| XmlNamespace.SetPair | src/main/java/com/reandroid/lib/arsc/chunk/xml/ResXmlNamespace.java:55-63 | pairing with itself does nothing; null clears only this link; otherwise both chunks point at each other; no other chunk and no reference changes |
| XmlNamespace.SetPairLinksUnpaired | src/main/java/com/reandroid/lib/arsc/chunk/xml/ResXmlNamespace.java:55-63 | pairing two unpaired chunks makes them mutual twins and keeps all links reciprocated |
| XmlNamespace.ClearLeavesBackLink | src/main/java/com/reandroid/lib/arsc/chunk/xml/ResXmlNamespace.java:59-62 | `setPair(null)` clears only this side; the former twin keeps its link |
| XmlNamespace.SetPairLeavesOldTwin | src/main/java/com/reandroid/lib/arsc/chunk/xml/ResXmlNamespace.java:55-63 | pairing with a chunk that already has a twin leaves that old twin linked to it, so the links are no longer reciprocated |
| XmlNamespace.SetPairLeavesOldTwinExample | src/main/java/com/reandroid/lib/arsc/chunk/xml/ResXmlNamespace.java:55-63 | in the arena {0 unpaired, 1 and 2 twins}, pairing 0 with 1 leaves 2 linked to 1 |
| XmlNamespace.OneSidedChainExample | src/main/java/com/reandroid/lib/arsc/chunk/xml/ResXmlNamespace.java:35-41 | after the one-sided pairing above, a uri write at 2 reaches 2, then 1, then 0, which is not 2's twin |
| XmlNamespace.PendingShrinks | src/main/java/com/reandroid/lib/arsc/chunk/xml/ResXmlNamespace.java:36-40 | each local write removes one chunk from the set still lacking the value, so propagation ends |
| XmlNamespace.Chain | src/main/java/com/reandroid/lib/arsc/chunk/xml/ResXmlNamespace.java:35-41 | the chunks a propagating write visits start at the chunk written |
| XmlNamespace.ChainWritesPending | src/main/java/com/reandroid/lib/arsc/chunk/xml/ResXmlNamespace.java:36-40 | every chunk after the first lacked the value before the write |
| XmlNamespace.ChainFollowsLinks | src/main/java/com/reandroid/lib/arsc/chunk/xml/ResXmlNamespace.java:36-40 | each chunk the write reaches after the first is the twin of the chunk written before it |
| XmlNamespace.ChainDistinct | src/main/java/com/reandroid/lib/arsc/chunk/xml/ResXmlNamespace.java:35-41 | the write visits no chunk twice |
| XmlNamespace.ChainBounded | src/main/java/com/reandroid/lib/arsc/chunk/xml/ResXmlNamespace.java:35-41 | the write visits at most as many chunks as exist |
| XmlNamespace.ChainOneHop | src/main/java/com/reandroid/lib/arsc/chunk/xml/ResXmlNamespace.java:35-41 | with reciprocated links, the write reaches the chunk and at most its twin |
| XmlNamespace.Propagate | src/main/java/com/reandroid/lib/arsc/chunk/xml/ResXmlNamespace.java:35-51 | every visited chunk gets the value, the twin included; unvisited chunks, links and the other reference are unchanged |
| XmlNamespace.SetUriReference | src/main/java/com/reandroid/lib/arsc/chunk/xml/ResXmlNamespace.java:35-41 | the chunk and its twin get the uri reference; prefixes and links are unchanged; with reciprocated links no other chunk changes |
| XmlNamespace.SetPrefixReference | src/main/java/com/reandroid/lib/arsc/chunk/xml/ResXmlNamespace.java:45-51 | the chunk and its twin get the prefix reference; uris and links are unchanged; with reciprocated links no other chunk changes |
| XmlNamespace.PropagatePreservesConsistency | src/main/java/com/reandroid/lib/arsc/chunk/xml/ResXmlNamespace.java:35-51 | on reciprocated, agreeing twins, a write keeps the links reciprocated and the twins agreeing |
| XmlNamespace.GetUri | src/main/java/com/reandroid/lib/arsc/chunk/xml/ResXmlNamespace.java:12-14 | the string-pool entry at the chunk's uri reference, null when the reference is out of range |
| XmlNamespace.GetPrefix | src/main/java/com/reandroid/lib/arsc/chunk/xml/ResXmlNamespace.java:22-24 | the string-pool entry at the chunk's prefix reference, null when the reference is out of range |
| XmlNamespace.ReadsAreLocal | src/main/java/com/reandroid/lib/arsc/chunk/xml/ResXmlNamespace.java:12-24 | any arena that agrees on the chunk's own uri (or prefix) reference reads the same uri (or prefix), whatever its links and twin hold |
| XmlNamespace.SetUri | src/main/java/com/reandroid/lib/arsc/chunk/xml/ResXmlNamespace.java:15-21 | fails with the "Null ResXmlString" argument error exactly when the string cannot be interned; otherwise sets the uri reference to its index |
| XmlNamespace.SetPrefix | src/main/java/com/reandroid/lib/arsc/chunk/xml/ResXmlNamespace.java:25-31 | fails with the "Null ResXmlString" argument error exactly when the string cannot be interned; otherwise sets the prefix reference to its index |
| XmlNamespace.SetUriThenGetUri | src/main/java/com/reandroid/lib/arsc/chunk/xml/ResXmlNamespace.java:12-21 | after `setUri(u)`, the chunk and its twin read `u` back |
| XmlNamespace.SetPrefixThenGetPrefix | src/main/java/com/reandroid/lib/arsc/chunk/xml/ResXmlNamespace.java:22-31 | after `setPrefix(p)`, the chunk and its twin read `p` back |
| XmlNamespace.ToString | src/main/java/com/reandroid/lib/arsc/chunk/xml/ResXmlNamespace.java:64-71 | the `xmlns:` declaration exactly when the uri resolves, otherwise the chunk's generic text |
| XmlNamespace.ToStringDeclaration | src/main/java/com/reandroid/lib/arsc/chunk/xml/ResXmlNamespace.java:64-71 | the `xmlns:` declaration appears exactly when the uri resolves, and its prefix and uri can be cut back out of it |
| XmlNamespace.TwinsRenderAlike | src/main/java/com/reandroid/lib/arsc/chunk/xml/ResXmlNamespace.java:64-71 | twins that agree render the same text |

## Left out

- `getAccessFlags()` and the access-flag keyword table: the flags are rendered as one
  `FlagWords` token. The keyword table (`AccessFlag`) is not part of this model.
- Text written by other writers: type descriptors, string data, annotation sets and class
  data. `SmaliWriter` and these items' `append` methods are not part of this model, so their
  output is an opaque token.
- `IOException` from the writer: no I/O is modelled.
- `classData.setClassId(this)` inside `append`: it is a side effect on another object, which is
  not part of this model.
- `ItemIndexReference`, `ItemOffsetReference` and `IndirectInteger` are not part of this model.
  Their behaviour is the definition in `Reference`, described above.
- `EncodedArray.get(i)`: taken to be element `i` when `i` is in range, and null otherwise.
- `BaseXmlChunk.getString`: taken to be the pool entry at the index when it is in range, and
  null otherwise.
- `getOrCreateString` (the string pool): its answer, an index or null, is the parameter
  `interned` of `SetUri` and `SetPrefix`.
- `BaseXmlChunk`'s string and namespace references: taken to be plain fields.
  `get`/`setStringReference` read and write `uriRef`, and `get`/`setNamespaceReference` read and
  write `prefixRef`. `BaseXmlChunk` is not part of this model.
- `super.toString()` of a chunk whose uri does not resolve is the opaque `ChunkText`.
- Twin links are keys into a map of chunks, not object references. Links are assumed never to
  dangle (`Closed`).
- The `RenamedInputSource` wrapper: it only delegates I/O.
- Reference.Set: it takes only an item already placed in its section. Java's `setItem`
  also accepts an item not yet in a section, but the model's index lookup needs the section.
- ClassId.SetClassType, ClassId.SetSuperClass, ClassId.SetSourceFile, ClassId.SetInterfaces,
  ClassId.SetAnnotationsDirectory, ClassId.SetClassData and ClassId.SetStaticValues: like
  `Reference.Set`, they take only items already placed in their sections.
- Caches inside other objects: `getClassAnnotations()` reads the directory's class set,
  and that directory's own state is not part of this model.
- ClassId.SetClassType and the other six setters state their getter round trip only for
  well-formed sections. Duplicate keys or offsets can make a lookup return a different item.

=== FILE: class_codec.dfy ===
/** The 32-byte little-endian form of a class definition record. */
module ClassCodec {
  import opened Wrappers
  import opened Words
  import opened Reference
  import opened ClassLayout
  import opened ClassId
  import D = DexItems

  /** The record's bytes: every slot's 32-bit word at the slot's offset. */
  function Encode(c: ClassDef): (bs: seq<byte>)
    ensures |bs| == Size
    ensures forall f :: bs[Offset(f)..Offset(f) + 4] == Word(Stored(c, f))
  {
    var bs := Word(c.classType.stored) + Word(c.accessFlagValue) + Word(c.superClass.stored)
      + Word(c.interfaces.stored) + Word(c.sourceFile.stored) + Word(c.annotationsDirectory.stored)
      + Word(c.classData.stored) + Word(c.staticValues.stored);
    assert bs[0..4] == Word(Stored(c, ClassType));
    assert bs[4..8] == Word(Stored(c, AccessFlags));
    assert bs[8..12] == Word(Stored(c, SuperClass));
    assert bs[12..16] == Word(Stored(c, Interfaces));
    assert bs[16..20] == Word(Stored(c, SourceFile));
    assert bs[20..24] == Word(Stored(c, AnnotationsDirectory));
    assert bs[24..28] == Word(Stored(c, ClassData));
    assert bs[28..32] == Word(Stored(c, StaticValues));
    bs
  }

  /** The signed value of the word at a slot's offset. */
  function Field(bs: seq<byte>, f: Slot): (v: int)
    requires |bs| == Size
    ensures IsInt32(v)
  {
    LayoutMatchesFormat(f);
    ReadWord(bs[Offset(f)..Offset(f) + 4])
  }

  /** Reads a record: every reference starts unresolved, holding the integer at its offset. */
  function Decode(bs: seq<byte>): (c: ClassDef)
    requires |bs| == Size
    ensures forall f :: Stored(c, f) == Field(bs, f)
    ensures forall f :: f != AccessFlags ==> RefOf(c, f).cached.None?
  {
    ClassDef(
      Parsed(Field(bs, ClassType)),
      Field(bs, AccessFlags),
      Parsed(Field(bs, SuperClass)),
      Parsed(Field(bs, Interfaces)),
      Parsed(Field(bs, SourceFile)),
      Parsed(Field(bs, AnnotationsDirectory)),
      Parsed(Field(bs, ClassData)),
      Parsed(Field(bs, StaticValues)))
  }

  /** The record with every cache dropped: what survives serialization. */
  function Uncached(c: ClassDef): ClassDef {
    ClassDef(Parsed(c.classType.stored), c.accessFlagValue, Parsed(c.superClass.stored),
             Parsed(c.interfaces.stored), Parsed(c.sourceFile.stored), Parsed(c.annotationsDirectory.stored),
             Parsed(c.classData.stored), Parsed(c.staticValues.stored))
  }

  predicate Encodable(c: ClassDef) {
    forall f :: IsInt32(Stored(c, f))
  }

  /** Reading back the bytes of a record yields its stored integers, with nothing cached. */
  lemma DecodeEncode(c: ClassDef)
    requires Encodable(c)
    ensures Decode(Encode(c)) == Uncached(c)
  {
    var bs := Encode(c);
    forall f ensures Field(bs, f) == Stored(c, f) {
      WordRoundTrip(Stored(c, f));
    }
  }

  /** Any 32 bytes survive a read followed by a write unchanged. */
  lemma EncodeDecode(bs: seq<byte>)
    requires |bs| == Size
    ensures Encode(Decode(bs)) == bs
  {
    var out := Encode(Decode(bs));
    forall f ensures out[Offset(f)..Offset(f) + 4] == bs[Offset(f)..Offset(f) + 4] {
      ReadWordRoundTrip(bs[Offset(f)..Offset(f) + 4]);
    }
    SameSlotsSameBytes(out, bs);
  }

  /** Byte strings that agree on every slot's four bytes are equal. */
  lemma SameSlotsSameBytes(a: seq<byte>, b: seq<byte>)
    requires |a| == Size && |b| == Size
    requires forall f :: a[Offset(f)..Offset(f) + 4] == b[Offset(f)..Offset(f) + 4]
    ensures a == b
  {
    forall k | 0 <= k < Size ensures a[k] == b[k] {
      var f := SlotAt(k);
      assert a[k] == a[Offset(f)..Offset(f) + 4][k - Offset(f)];
      assert b[k] == b[Offset(f)..Offset(f) + 4][k - Offset(f)];
    }
  }

  /** Two records that differ in one slot at most differ in that slot's four bytes at most. */
  lemma OnlyOwnSlotBytesDiffer(c: ClassDef, d: ClassDef, f: Slot)
    requires forall g :: g != f ==> Stored(d, g) == Stored(c, g)
    ensures forall k :: 0 <= k < Size && !(Offset(f) <= k < Offset(f) + 4) ==> Encode(d)[k] == Encode(c)[k]
  {
    var a, b := Encode(d), Encode(c);
    forall k | 0 <= k < Size && !(Offset(f) <= k < Offset(f) + 4) ensures a[k] == b[k] {
      var g := SlotAt(k);
      assert a[Offset(g)..Offset(g) + 4] == b[Offset(g)..Offset(g) + 4];
      assert a[k] == a[Offset(g)..Offset(g) + 4][k - Offset(g)];
      assert b[k] == b[Offset(g)..Offset(g) + 4][k - Offset(g)];
    }
  }

  /* Each setter changes only the four bytes of its own slot: bytes 0-3 for the class type,
     8-11 for the superclass, 12-15 for the interfaces, 16-19 for the source file, 20-23 for
     the annotations directory, 24-27 for the class data and 28-31 for the static values. */

  lemma SetClassTypeBytes(c: ClassDef, secs: D.Sections, x: Option<Item<D.TypeId>>)
    requires x.Some? ==> x.value in secs.typeIds
    ensures forall k :: 0 <= k < Size && !(0 <= k < 4) ==> Encode(SetClassType(c, secs, x))[k] == Encode(c)[k]
  {
    OnlyOwnSlotBytesDiffer(c, SetClassType(c, secs, x), ClassType);
  }

  lemma SetSuperClassBytes(c: ClassDef, secs: D.Sections, x: Option<Item<D.TypeId>>)
    requires x.Some? ==> x.value in secs.typeIds
    ensures forall k :: 0 <= k < Size && !(8 <= k < 12) ==> Encode(SetSuperClass(c, secs, x))[k] == Encode(c)[k]
  {
    OnlyOwnSlotBytesDiffer(c, SetSuperClass(c, secs, x), SuperClass);
  }

  lemma SetInterfacesBytes(c: ClassDef, secs: D.Sections, x: Option<Item<D.TypeList>>)
    requires x.Some? ==> x.value in secs.typeLists
    ensures forall k :: 0 <= k < Size && !(12 <= k < 16) ==> Encode(SetInterfaces(c, secs, x))[k] == Encode(c)[k]
  {
    OnlyOwnSlotBytesDiffer(c, SetInterfaces(c, secs, x), Interfaces);
  }

  lemma SetSourceFileBytes(c: ClassDef, secs: D.Sections, x: Option<Item<D.StringData>>)
    requires x.Some? ==> x.value in secs.strings
    ensures forall k :: 0 <= k < Size && !(16 <= k < 20) ==> Encode(SetSourceFile(c, secs, x))[k] == Encode(c)[k]
  {
    OnlyOwnSlotBytesDiffer(c, SetSourceFile(c, secs, x), SourceFile);
  }

  lemma SetAnnotationsDirectoryBytes(c: ClassDef, secs: D.Sections, x: Option<Item<D.AnnotationsDirectory>>)
    requires x.Some? ==> x.value in secs.annotationsDirectories
    ensures forall k :: 0 <= k < Size && !(20 <= k < 24) ==> Encode(SetAnnotationsDirectory(c, secs, x))[k] == Encode(c)[k]
  {
    OnlyOwnSlotBytesDiffer(c, SetAnnotationsDirectory(c, secs, x), AnnotationsDirectory);
  }

  lemma SetClassDataBytes(c: ClassDef, secs: D.Sections, x: Option<Item<D.ClassData>>)
    requires x.Some? ==> x.value in secs.classDatas
    ensures forall k :: 0 <= k < Size && !(24 <= k < 28) ==> Encode(SetClassData(c, secs, x))[k] == Encode(c)[k]
  {
    OnlyOwnSlotBytesDiffer(c, SetClassData(c, secs, x), ClassData);
  }

  lemma SetStaticValuesBytes(c: ClassDef, secs: D.Sections, x: Option<Item<D.EncodedArray>>)
    requires x.Some? ==> x.value in secs.encodedArrays
    ensures forall k :: 0 <= k < Size && !(28 <= k < 32) ==> Encode(SetStaticValues(c, secs, x))[k] == Encode(c)[k]
  {
    OnlyOwnSlotBytesDiffer(c, SetStaticValues(c, secs, x), StaticValues);
  }

  /** `getAccessFlagValue()` is the signed little-endian word at byte 4, both for a record read
      from bytes and in the bytes a record writes. */
  lemma AccessFlagsWord(bs: seq<byte>, c: ClassDef)
    requires |bs| == Size
    ensures GetAccessFlagValue(Decode(bs)) == ReadWord(bs[4..8])
    ensures Encode(c)[4..8] == Word(GetAccessFlagValue(c))
  {
    LayoutMatchesFormat(AccessFlags);
  }

  /** A new record is 32 zero bytes. */
  lemma EmptyIsZeroed()
    ensures Encode(Empty()) == seq(Size, _ => 0)
  {
    var zeros: seq<byte> := seq(Size, _ => 0);
    forall f ensures Encode(Empty())[Offset(f)..Offset(f) + 4] == zeros[Offset(f)..Offset(f) + 4] {
      assert Word(0) == [0, 0, 0, 0];
    }
    SameSlotsSameBytes(Encode(Empty()), zeros);
  }

  /** After a round trip through bytes, a slot resolves through its stored integer alone. */
  lemma RoundTripSlotTarget(r: ClassDef, f: Slot, secs: D.Sections)
    requires Encodable(r) && f != AccessFlags
    ensures Target(Decode(Encode(r)), f, secs) == StoredTarget(r, f, secs)
  {
    DecodeEncode(r);
    var back := Decode(Encode(r));
    assert RefOf(back, f) == Parsed(RefOf(r, f).stored);
    UncachedTargetIsStored(back, f, secs);
    StoredTargetDependsOnStored(back, r, f, secs);
  }

  /** After `refresh()` the record serializes, and a re-read of its bytes resolves every
      reference to the target the record referred to before. */
  lemma RefreshThenSerialize(c: ClassDef, secs: D.Sections)
    requires D.AllWellFormed(secs) && IsInt32(c.accessFlagValue)
    ensures Encodable(ClassId.Refresh(c, secs))
    ensures forall f :: f != AccessFlags ==>
      Target(Decode(Encode(ClassId.Refresh(c, secs))), f, secs) == Target(c, f, secs)
  {
    var r := ClassId.Refresh(c, secs);
    forall f | f != AccessFlags ensures Target(Decode(Encode(r)), f, secs) == Target(c, f, secs) {
      RoundTripSlotTarget(r, f, secs);
    }
  }
}

=== FILE: class_id.dfy ===
/** The DEX class definition record (`class_def_item`): seven references and the raw
    access-flags integer, with typed getters and setters, derived getters, and the
    `refresh` / `cacheItems` sweeps. */
module ClassId {
  import opened Wrappers
  import opened Words
  import opened Reference
  import opened ClassLayout
  import D = DexItems

  datatype ClassDef = ClassDef(
    classType: Ref,
    accessFlagValue: int,
    superClass: Ref,
    interfaces: Ref,
    sourceFile: Ref,
    annotationsDirectory: Ref,
    classData: Ref,
    staticValues: Ref)

  /** A newly constructed record: every slot of its zeroed 32-byte buffer reads 0. */
  function Empty(): ClassDef {
    ClassDef(Parsed(0), 0, Parsed(0), Parsed(0), Parsed(0), Parsed(0), Parsed(0), Parsed(0))
  }

  /** The reference held in a reference slot. */
  function RefOf(c: ClassDef, f: Slot): Ref
    requires f != AccessFlags
  {
    match f
    case ClassType => c.classType
    case SuperClass => c.superClass
    case Interfaces => c.interfaces
    case SourceFile => c.sourceFile
    case AnnotationsDirectory => c.annotationsDirectory
    case ClassData => c.classData
    case StaticValues => c.staticValues
  }

  /** The 32-bit value a slot holds. */
  function Stored(c: ClassDef, f: Slot): int {
    if f == AccessFlags then c.accessFlagValue else RefOf(c, f).stored
  }

  /** Replaces the reference in one slot. */
  function WithRef(c: ClassDef, f: Slot, r: Ref): (d: ClassDef)
    requires f != AccessFlags
    ensures RefOf(d, f) == r
    ensures forall g :: g != AccessFlags && g != f ==> RefOf(d, g) == RefOf(c, g)
    ensures d.accessFlagValue == c.accessFlagValue
  {
    match f
    case ClassType => c.(classType := r)
    case SuperClass => c.(superClass := r)
    case Interfaces => c.(interfaces := r)
    case SourceFile => c.(sourceFile := r)
    case AnnotationsDirectory => c.(annotationsDirectory := r)
    case ClassData => c.(classData := r)
    case StaticValues => c.(staticValues := r)
  }

  function KeyOf<T>(o: Option<Item<T>>): Option<Key> {
    match o
    case None => None
    case Some(item) => Some(item.key)
  }

  /** In a well-formed section, two answers with the same identity are the same answer. */
  lemma SameKeySameItem<T>(s: Section<T>, x: Option<Item<T>>, y: Option<Item<T>>)
    requires WellFormed(s) && (x.Some? ==> x.value in s) && (y.Some? ==> y.value in s)
    requires KeyOf(x) == KeyOf(y)
    ensures x == y
  {
    if x.Some? {
      UniqueInSection(s, x.value, y.value);
    }
  }

  /** Identity of what a reference slot currently resolves to. */
  function Target(c: ClassDef, f: Slot, secs: D.Sections): Option<Key>
    requires f != AccessFlags
  {
    var m := AddressingOf(f);
    match f
    case ClassType => KeyOf(Get(m, c.classType, secs.typeIds))
    case SuperClass => KeyOf(Get(m, c.superClass, secs.typeIds))
    case Interfaces => KeyOf(Get(m, c.interfaces, secs.typeLists))
    case SourceFile => KeyOf(Get(m, c.sourceFile, secs.strings))
    case AnnotationsDirectory => KeyOf(Get(m, c.annotationsDirectory, secs.annotationsDirectories))
    case ClassData => KeyOf(Get(m, c.classData, secs.classDatas))
    case StaticValues => KeyOf(Get(m, c.staticValues, secs.encodedArrays))
  }

  /** Identity of what a slot's stored integer alone resolves to (as after re-reading the bytes). */
  function StoredTarget(c: ClassDef, f: Slot, secs: D.Sections): Option<Key>
    requires f != AccessFlags
  {
    var m := AddressingOf(f);
    var n := RefOf(c, f).stored;
    match f
    case ClassType => KeyOf(Resolve(m, n, secs.typeIds))
    case SuperClass => KeyOf(Resolve(m, n, secs.typeIds))
    case Interfaces => KeyOf(Resolve(m, n, secs.typeLists))
    case SourceFile => KeyOf(Resolve(m, n, secs.strings))
    case AnnotationsDirectory => KeyOf(Resolve(m, n, secs.annotationsDirectories))
    case ClassData => KeyOf(Resolve(m, n, secs.classDatas))
    case StaticValues => KeyOf(Resolve(m, n, secs.encodedArrays))
  }

  /** A reference with nothing cached resolves through its stored integer. */
  lemma UncachedTargetIsStored(c: ClassDef, f: Slot, secs: D.Sections)
    requires f != AccessFlags && RefOf(c, f).cached.None?
    ensures Target(c, f, secs) == StoredTarget(c, f, secs)
  {
  }

  /** What a stored integer resolves to depends only on that integer. */
  lemma StoredTargetDependsOnStored(a: ClassDef, b: ClassDef, f: Slot, secs: D.Sections)
    requires f != AccessFlags && RefOf(a, f).stored == RefOf(b, f).stored
    ensures StoredTarget(a, f, secs) == StoredTarget(b, f, secs)
  {
  }

  // ---------------------------------------------------------------- getters

  /* Each getter returns what its reference's `getItem()` returns. The record `getItem()`
     leaves behind, with that answer cached, is `Touch` below. */

  function GetClassType(c: ClassDef, secs: D.Sections): (r: Option<Item<D.TypeId>>)
    ensures Fetched(ByIndex, c.classType, secs.typeIds, r)
  {
    Get(ByIndex, c.classType, secs.typeIds)
  }

  function GetAccessFlagValue(c: ClassDef): int {
    c.accessFlagValue
  }

  function GetSuperClass(c: ClassDef, secs: D.Sections): (r: Option<Item<D.TypeId>>)
    ensures Fetched(ByIndex, c.superClass, secs.typeIds, r)
  {
    Get(ByIndex, c.superClass, secs.typeIds)
  }

  function GetSourceFile(c: ClassDef, secs: D.Sections): (r: Option<Item<D.StringData>>)
    ensures Fetched(ByIndex, c.sourceFile, secs.strings, r)
  {
    Get(ByIndex, c.sourceFile, secs.strings)
  }

  function GetInterfaces(c: ClassDef, secs: D.Sections): (r: Option<Item<D.TypeList>>)
    ensures Fetched(ByOffset, c.interfaces, secs.typeLists, r)
  {
    Get(ByOffset, c.interfaces, secs.typeLists)
  }

  function GetAnnotationsDirectory(c: ClassDef, secs: D.Sections): (r: Option<Item<D.AnnotationsDirectory>>)
    ensures Fetched(ByOffset, c.annotationsDirectory, secs.annotationsDirectories, r)
  {
    Get(ByOffset, c.annotationsDirectory, secs.annotationsDirectories)
  }

  function GetClassData(c: ClassDef, secs: D.Sections): (r: Option<Item<D.ClassData>>)
    ensures Fetched(ByOffset, c.classData, secs.classDatas, r)
  {
    Get(ByOffset, c.classData, secs.classDatas)
  }

  function GetStaticValues(c: ClassDef, secs: D.Sections): (r: Option<Item<D.EncodedArray>>)
    ensures Fetched(ByOffset, c.staticValues, secs.encodedArrays, r)
  {
    Get(ByOffset, c.staticValues, secs.encodedArrays)
  }

  /** The record after `getItem()` on slot `f`: a reference with nothing cached caches the
      record it returned; nothing else changes, and nothing changes at all when it returned
      null. */
  function Touch(c: ClassDef, f: Slot, secs: D.Sections): (d: ClassDef)
    requires f != AccessFlags
    ensures d.accessFlagValue == c.accessFlagValue
    ensures forall g :: g != AccessFlags && g != f ==> RefOf(d, g) == RefOf(c, g)
    ensures RefOf(d, f).stored == RefOf(c, f).stored
    ensures Target(c, f, secs).Some? ==> RefOf(d, f).cached == Target(c, f, secs)
    ensures Target(c, f, secs).None? ==> d == c
    ensures D.AllWellFormed(secs) ==> Target(d, f, secs) == Target(c, f, secs)
  {
    var d := WithRef(c, f, StepRef(f, RefOf(c, f), secs, CachePass));
    if D.AllWellFormed(secs) then CacheStepFacts(c, f, secs); d else d
  }

  /** After a getter has run, its reference follows the record it returned, not a position:
      however the sections change later, the slot finds that record or nothing. */
  lemma TouchFollowsItem(c: ClassDef, f: Slot, secs: D.Sections, later: D.Sections)
    requires f != AccessFlags && Target(c, f, secs).Some?
    ensures Target(Touch(c, f, secs), f, later).Some? ==> Target(Touch(c, f, secs), f, later) == Target(c, f, secs)
  {
  }

  // ---------------------------------------------------------------- derived getters

  /** The class's descriptor; absent exactly when the class type does not resolve. */
  function GetName(c: ClassDef, secs: D.Sections): (r: Option<string>)
    ensures r.None? <==> GetClassType(c, secs).None?
    ensures r.Some? ==> r.value == GetClassType(c, secs).value.value.name
  {
    match GetClassType(c, secs)
    case None => None
    case Some(t) => Some(t.value.name)
  }

  /** The implemented interfaces; absent exactly when the interface list does not resolve. */
  function GetInterfaceTypeIds(c: ClassDef, secs: D.Sections): (r: Option<seq<D.TypeId>>)
    ensures r.None? <==> GetInterfaces(c, secs).None?
    ensures r.Some? ==> r.value == GetInterfaces(c, secs).value.value.typeIds
  {
    match GetInterfaces(c, secs)
    case None => None
    case Some(l) => Some(l.value.typeIds)
  }

  /** The class-level annotations: absent when the directory does not resolve, otherwise
      whatever the directory holds (which may itself be absent). */
  function GetClassAnnotations(c: ClassDef, secs: D.Sections): (r: Option<D.AnnotationSet>)
    ensures GetAnnotationsDirectory(c, secs).None? ==> r.None?
    ensures GetAnnotationsDirectory(c, secs).Some? ==> r == GetAnnotationsDirectory(c, secs).value.value.classAnnotations
  {
    match GetAnnotationsDirectory(c, secs)
    case None => None
    case Some(d) => d.value.classAnnotations
  }

  /** Static value `i`: absent when the static-values array does not resolve, otherwise
      the array's own element lookup. */
  function GetStaticValue(c: ClassDef, secs: D.Sections, i: int): (r: Option<D.DexValue>)
    ensures GetStaticValues(c, secs).None? ==> r.None?
    ensures GetStaticValues(c, secs).Some? ==> r == GetStaticValues(c, secs).value.value.Get(i)
  {
    match GetStaticValues(c, secs)
    case None => None
    case Some(a) => a.value.Get(i)
  }

  // ---------------------------------------------------------------- setters

  function SetClassType(c: ClassDef, secs: D.Sections, x: Option<Item<D.TypeId>>): (r: ClassDef)
    requires x.Some? ==> x.value in secs.typeIds
    ensures r == c.(classType := r.classType)
    ensures WellFormed(secs.typeIds) ==> GetClassType(r, secs) == x
    ensures x.None? ==> r.classType.stored == Absent(ByIndex)
  {
    SetThenGet(ByIndex, x, secs.typeIds);
    c.(classType := Set(ByIndex, x, secs.typeIds))
  }

  function SetSuperClass(c: ClassDef, secs: D.Sections, x: Option<Item<D.TypeId>>): (r: ClassDef)
    requires x.Some? ==> x.value in secs.typeIds
    ensures r == c.(superClass := r.superClass)
    ensures WellFormed(secs.typeIds) ==> GetSuperClass(r, secs) == x
    ensures x.None? ==> r.superClass.stored == Absent(ByIndex)
  {
    SetThenGet(ByIndex, x, secs.typeIds);
    c.(superClass := Set(ByIndex, x, secs.typeIds))
  }

  function SetSourceFile(c: ClassDef, secs: D.Sections, x: Option<Item<D.StringData>>): (r: ClassDef)
    requires x.Some? ==> x.value in secs.strings
    ensures r == c.(sourceFile := r.sourceFile)
    ensures WellFormed(secs.strings) ==> GetSourceFile(r, secs) == x
    ensures x.None? ==> r.sourceFile.stored == Absent(ByIndex)
  {
    SetThenGet(ByIndex, x, secs.strings);
    c.(sourceFile := Set(ByIndex, x, secs.strings))
  }

  function SetInterfaces(c: ClassDef, secs: D.Sections, x: Option<Item<D.TypeList>>): (r: ClassDef)
    requires x.Some? ==> x.value in secs.typeLists
    ensures r == c.(interfaces := r.interfaces)
    ensures WellFormed(secs.typeLists) ==> GetInterfaces(r, secs) == x
    ensures x.None? ==> r.interfaces.stored == Absent(ByOffset)
  {
    SetThenGet(ByOffset, x, secs.typeLists);
    c.(interfaces := Set(ByOffset, x, secs.typeLists))
  }

  function SetAnnotationsDirectory(c: ClassDef, secs: D.Sections, x: Option<Item<D.AnnotationsDirectory>>): (r: ClassDef)
    requires x.Some? ==> x.value in secs.annotationsDirectories
    ensures r == c.(annotationsDirectory := r.annotationsDirectory)
    ensures WellFormed(secs.annotationsDirectories) ==> GetAnnotationsDirectory(r, secs) == x
    ensures x.None? ==> r.annotationsDirectory.stored == Absent(ByOffset)
  {
    SetThenGet(ByOffset, x, secs.annotationsDirectories);
    c.(annotationsDirectory := Set(ByOffset, x, secs.annotationsDirectories))
  }

  function SetClassData(c: ClassDef, secs: D.Sections, x: Option<Item<D.ClassData>>): (r: ClassDef)
    requires x.Some? ==> x.value in secs.classDatas
    ensures r == c.(classData := r.classData)
    ensures WellFormed(secs.classDatas) ==> GetClassData(r, secs) == x
    ensures x.None? ==> r.classData.stored == Absent(ByOffset)
  {
    SetThenGet(ByOffset, x, secs.classDatas);
    c.(classData := Set(ByOffset, x, secs.classDatas))
  }

  function SetStaticValues(c: ClassDef, secs: D.Sections, x: Option<Item<D.EncodedArray>>): (r: ClassDef)
    requires x.Some? ==> x.value in secs.encodedArrays
    ensures r == c.(staticValues := r.staticValues)
    ensures WellFormed(secs.encodedArrays) ==> GetStaticValues(r, secs) == x
    ensures x.None? ==> r.staticValues.stored == Absent(ByOffset)
  {
    SetThenGet(ByOffset, x, secs.encodedArrays);
    c.(staticValues := Set(ByOffset, x, secs.encodedArrays))
  }

  /** After `setClassType(t)` the name is `t`'s descriptor, or absent for `null`. */
  lemma NameAfterSetClassType(c: ClassDef, secs: D.Sections, x: Option<Item<D.TypeId>>)
    requires x.Some? ==> x.value in secs.typeIds
    requires WellFormed(secs.typeIds)
    ensures GetName(SetClassType(c, secs, x), secs) == if x.None? then None else Some(x.value.value.name)
  {
  }

  /** After `setInterfaces(l)` the interface types are `l`'s, or absent for `null`. */
  lemma InterfaceTypeIdsAfterSetInterfaces(c: ClassDef, secs: D.Sections, x: Option<Item<D.TypeList>>)
    requires x.Some? ==> x.value in secs.typeLists
    requires WellFormed(secs.typeLists)
    ensures GetInterfaceTypeIds(SetInterfaces(c, secs, x), secs)
            == if x.None? then None else Some(x.value.value.typeIds)
  {
  }

  /** After `setStaticValues(a)`, static value `i` is `a`'s element `i` (absent when out of
      range), and absent for `null`. */
  lemma StaticValueAfterSetStaticValues(c: ClassDef, secs: D.Sections, x: Option<Item<D.EncodedArray>>, i: int)
    requires x.Some? ==> x.value in secs.encodedArrays
    requires WellFormed(secs.encodedArrays)
    ensures GetStaticValue(SetStaticValues(c, secs, x), secs, i)
            == if x.None? then None else x.value.value.Get(i)
    ensures GetStaticValue(SetStaticValues(c, secs, x), secs, i).Some?
            <==> x.Some? && 0 <= i < |x.value.value.values|
  {
  }

  // ---------------------------------------------------------------- refresh and cacheItems

  /** The two sweeps over the reference slots. */
  datatype Pass = RefreshPass | CachePass

  function Apply<T>(pass: Pass, mode: Addressing, r: Ref, s: Section<T>): Ref {
    match pass
    case RefreshPass => Reference.Refresh(mode, r, s)
    case CachePass => Cache(mode, r, s)
  }

  /** One reference's `refresh()` or `getItem()`, against the section its slot targets. */
  function StepRef(f: Slot, r: Ref, secs: D.Sections, pass: Pass): Ref
    requires f != AccessFlags
  {
    var m := AddressingOf(f);
    match f
    case ClassType => Apply(pass, m, r, secs.typeIds)
    case SuperClass => Apply(pass, m, r, secs.typeIds)
    case Interfaces => Apply(pass, m, r, secs.typeLists)
    case SourceFile => Apply(pass, m, r, secs.strings)
    case AnnotationsDirectory => Apply(pass, m, r, secs.annotationsDirectories)
    case ClassData => Apply(pass, m, r, secs.classDatas)
    case StaticValues => Apply(pass, m, r, secs.encodedArrays)
  }

  /** Applies a pass to the listed slots, one after another, in list order. */
  function Sweep(c: ClassDef, secs: D.Sections, pass: Pass, slots: seq<Slot>): ClassDef
    requires AccessFlags !in slots
    decreases |slots|
  {
    if |slots| == 0 then c
    else Sweep(WithRef(c, slots[0], StepRef(slots[0], RefOf(c, slots[0]), secs, pass)), secs, pass, slots[1..])
  }

  predicate NoDuplicates(slots: seq<Slot>) {
    forall i, j :: 0 <= i < j < |slots| ==> slots[i] != slots[j]
  }

  /** A sweep over distinct slots applies the step to each listed slot exactly once and
      leaves the access flags and every unlisted slot alone. */
  lemma {:induction false} SweepPointwise(c: ClassDef, secs: D.Sections, pass: Pass, slots: seq<Slot>)
    requires AccessFlags !in slots && NoDuplicates(slots)
    ensures Sweep(c, secs, pass, slots).accessFlagValue == c.accessFlagValue
    ensures forall f :: f != AccessFlags ==>
      RefOf(Sweep(c, secs, pass, slots), f) == (if f in slots then StepRef(f, RefOf(c, f), secs, pass) else RefOf(c, f))
    decreases |slots|
  {
    if |slots| > 0 {
      var c1 := WithRef(c, slots[0], StepRef(slots[0], RefOf(c, slots[0]), secs, pass));
      SweepPointwise(c1, secs, pass, slots[1..]);
      forall f | f != AccessFlags
        ensures RefOf(Sweep(c, secs, pass, slots), f)
             == (if f in slots then StepRef(f, RefOf(c, f), secs, pass) else RefOf(c, f))
      {
        if f == slots[0] {
          assert f !in slots[1..] by {
            forall k | 0 <= k < |slots[1..]| ensures slots[1..][k] != f {
              assert slots[1..][k] == slots[k + 1];
            }
          }
        }
      }
    }
  }

  /** Per-slot facts about one refresh step, from the reference contract. */
  lemma RefreshStepFacts(c: ClassDef, f: Slot, secs: D.Sections)
    requires f != AccessFlags && D.AllWellFormed(secs)
    ensures var d := WithRef(c, f, StepRef(f, RefOf(c, f), secs, RefreshPass));
      && Target(d, f, secs) == Target(c, f, secs)
      && StoredTarget(d, f, secs) == Target(c, f, secs)
      && IsInt32(RefOf(d, f).stored)
  {
    var m := AddressingOf(f);
    var r := RefOf(c, f);
    match f
    case ClassType => RefreshKeepsTarget(m, r, secs.typeIds); RefreshRestamps(m, r, secs.typeIds);
    case SuperClass => RefreshKeepsTarget(m, r, secs.typeIds); RefreshRestamps(m, r, secs.typeIds);
    case Interfaces => RefreshKeepsTarget(m, r, secs.typeLists); RefreshRestamps(m, r, secs.typeLists);
    case SourceFile => RefreshKeepsTarget(m, r, secs.strings); RefreshRestamps(m, r, secs.strings);
    case AnnotationsDirectory =>
      RefreshKeepsTarget(m, r, secs.annotationsDirectories); RefreshRestamps(m, r, secs.annotationsDirectories);
    case ClassData => RefreshKeepsTarget(m, r, secs.classDatas); RefreshRestamps(m, r, secs.classDatas);
    case StaticValues => RefreshKeepsTarget(m, r, secs.encodedArrays); RefreshRestamps(m, r, secs.encodedArrays);
  }

  /** Per-slot facts about one `getItem()` step, from the reference contract. */
  lemma CacheStepFacts(c: ClassDef, f: Slot, secs: D.Sections)
    requires f != AccessFlags && D.AllWellFormed(secs)
    ensures var d := WithRef(c, f, StepRef(f, RefOf(c, f), secs, CachePass));
      && Target(d, f, secs) == Target(c, f, secs)
      && RefOf(d, f).stored == RefOf(c, f).stored
      && (RefOf(d, f).cached.Some? <==> RefOf(c, f).cached.Some? || StoredTarget(c, f, secs).Some?)
  {
    var m := AddressingOf(f);
    var r := RefOf(c, f);
    match f
    case ClassType => CacheKeepsTarget(m, r, secs.typeIds);
    case SuperClass => CacheKeepsTarget(m, r, secs.typeIds);
    case Interfaces => CacheKeepsTarget(m, r, secs.typeLists);
    case SourceFile => CacheKeepsTarget(m, r, secs.strings);
    case AnnotationsDirectory => CacheKeepsTarget(m, r, secs.annotationsDirectories);
    case ClassData => CacheKeepsTarget(m, r, secs.classDatas);
    case StaticValues => CacheKeepsTarget(m, r, secs.encodedArrays);
  }

  /** `r` is `c` refreshed: the access flags are untouched and, over well-formed sections, every
      reference keeps its target while its stored integer comes to resolve to that same target
      on its own (and fits 32 bits). */
  predicate RefreshedFrom(c: ClassDef, r: ClassDef, secs: D.Sections) {
    && r.accessFlagValue == c.accessFlagValue
    && (D.AllWellFormed(secs) ==> forall f :: f != AccessFlags ==>
         && Target(r, f, secs) == Target(c, f, secs)
         && StoredTarget(r, f, secs) == Target(c, f, secs)
         && IsInt32(Stored(r, f)))
  }

  /** `refresh()`: refreshes the seven references in declaration order. */
  function Refresh(c: ClassDef, secs: D.Sections): (r: ClassDef)
    ensures RefreshedFrom(c, r, secs)
  {
    RefreshSweepFacts(c, secs);
    Sweep(c, secs, RefreshPass, ReferenceSlots)
  }

  lemma RefreshSweepFacts(c: ClassDef, secs: D.Sections)
    ensures RefreshedFrom(c, Sweep(c, secs, RefreshPass, ReferenceSlots), secs)
  {
    ReferenceSlotsDistinct();
    SweepPointwise(c, secs, RefreshPass, ReferenceSlots);
    if D.AllWellFormed(secs) {
      forall f | f != AccessFlags {
        RefreshSlotFacts(c, secs, f);
      }
    }
  }

  lemma ReferenceSlotsDistinct()
    ensures AccessFlags !in ReferenceSlots && NoDuplicates(ReferenceSlots)
    ensures forall f :: f != AccessFlags ==> f in ReferenceSlots
  {
    ReferenceSlotsInDeclarationOrder();
    forall f | f != AccessFlags ensures f in ReferenceSlots {
      assert ReferenceSlots[Position(f) - (if Position(f) == 0 then 0 else 1)] == f;
    }
  }

  lemma RefreshSlotFacts(c: ClassDef, secs: D.Sections, f: Slot)
    requires D.AllWellFormed(secs) && f != AccessFlags
    ensures var r := Sweep(c, secs, RefreshPass, ReferenceSlots);
      && Target(r, f, secs) == Target(c, f, secs)
      && StoredTarget(r, f, secs) == Target(c, f, secs)
      && IsInt32(Stored(r, f))
  {
    ReferenceSlotsDistinct();
    SweepPointwise(c, secs, RefreshPass, ReferenceSlots);
    var r := Sweep(c, secs, RefreshPass, ReferenceSlots);
    RefreshStepFacts(c, f, secs);
    var d := WithRef(c, f, StepRef(f, RefOf(c, f), secs, RefreshPass));
    assert RefOf(r, f) == RefOf(d, f);
    TargetDependsOnSlot(r, d, f, secs);
  }

  /** What a slot resolves to depends only on that slot's reference. */
  lemma TargetDependsOnSlot(a: ClassDef, b: ClassDef, f: Slot, secs: D.Sections)
    requires f != AccessFlags && RefOf(a, f) == RefOf(b, f)
    ensures Target(a, f, secs) == Target(b, f, secs)
    ensures StoredTarget(a, f, secs) == StoredTarget(b, f, secs)
  {
  }

  /** `r` is `c` with its items cached: no stored integer is written and, over well-formed
      sections, no target changes, and afterwards a reference holds a cache exactly when it
      held one before or its stored integer resolved. */
  predicate CachedFrom(c: ClassDef, r: ClassDef, secs: D.Sections) {
    && (forall f :: Stored(r, f) == Stored(c, f))
    && (D.AllWellFormed(secs) ==> forall f :: f != AccessFlags ==>
         && Target(r, f, secs) == Target(c, f, secs)
         && (RefOf(r, f).cached.Some? <==> RefOf(c, f).cached.Some? || StoredTarget(c, f, secs).Some?))
  }

  /** `cacheItems()`: resolves the seven references in declaration order. */
  function CacheItems(c: ClassDef, secs: D.Sections): (r: ClassDef)
    ensures CachedFrom(c, r, secs)
  {
    CacheSweepFacts(c, secs);
    Sweep(c, secs, CachePass, ReferenceSlots)
  }

  lemma CacheSweepFacts(c: ClassDef, secs: D.Sections)
    ensures CachedFrom(c, Sweep(c, secs, CachePass, ReferenceSlots), secs)
  {
    ReferenceSlotsDistinct();
    SweepPointwise(c, secs, CachePass, ReferenceSlots);
    var r := Sweep(c, secs, CachePass, ReferenceSlots);
    forall f ensures Stored(r, f) == Stored(c, f) {
      if f != AccessFlags {
        CacheStepStored(c, f, secs);
        assert RefOf(r, f) == StepRef(f, RefOf(c, f), secs, CachePass);
      }
    }
    if D.AllWellFormed(secs) {
      forall f | f != AccessFlags {
        CacheSlotFacts(c, secs, f);
      }
    }
  }

  lemma CacheSlotFacts(c: ClassDef, secs: D.Sections, f: Slot)
    requires D.AllWellFormed(secs) && f != AccessFlags
    ensures var r := Sweep(c, secs, CachePass, ReferenceSlots);
      && Target(r, f, secs) == Target(c, f, secs)
      && (RefOf(r, f).cached.Some? <==> RefOf(c, f).cached.Some? || StoredTarget(c, f, secs).Some?)
  {
    ReferenceSlotsDistinct();
    SweepPointwise(c, secs, CachePass, ReferenceSlots);
    var r := Sweep(c, secs, CachePass, ReferenceSlots);
    CacheStepFacts(c, f, secs);
    var d := WithRef(c, f, StepRef(f, RefOf(c, f), secs, CachePass));
    assert RefOf(r, f) == RefOf(d, f);
    TargetDependsOnSlot(r, d, f, secs);
  }

  /** A `getItem()` step never writes the stored integer, whatever the sections hold. */
  lemma CacheStepStored(c: ClassDef, f: Slot, secs: D.Sections)
    requires f != AccessFlags
    ensures StepRef(f, RefOf(c, f), secs, CachePass).stored == RefOf(c, f).stored
  {
  }

  /** One reference refreshed twice is the same as refreshed once. */
  lemma StepRefreshIdempotent(f: Slot, x: Ref, secs: D.Sections)
    requires f != AccessFlags && D.AllWellFormed(secs)
    ensures StepRef(f, StepRef(f, x, secs, RefreshPass), secs, RefreshPass) == StepRef(f, x, secs, RefreshPass)
  {
    var m := AddressingOf(f);
    match f
    case ClassType => Reference.RefreshIdempotent(m, x, secs.typeIds);
    case SuperClass => Reference.RefreshIdempotent(m, x, secs.typeIds);
    case Interfaces => Reference.RefreshIdempotent(m, x, secs.typeLists);
    case SourceFile => Reference.RefreshIdempotent(m, x, secs.strings);
    case AnnotationsDirectory => Reference.RefreshIdempotent(m, x, secs.annotationsDirectories);
    case ClassData => Reference.RefreshIdempotent(m, x, secs.classDatas);
    case StaticValues => Reference.RefreshIdempotent(m, x, secs.encodedArrays);
  }

  lemma RefreshSlotIdempotent(c: ClassDef, secs: D.Sections, f: Slot)
    requires D.AllWellFormed(secs) && f != AccessFlags
    ensures RefOf(Refresh(Refresh(c, secs), secs), f) == RefOf(Refresh(c, secs), f)
  {
    ReferenceSlotsDistinct();
    var r := Refresh(c, secs);
    SweepPointwise(c, secs, RefreshPass, ReferenceSlots);
    SweepPointwise(r, secs, RefreshPass, ReferenceSlots);
    StepRefreshIdempotent(f, RefOf(c, f), secs);
  }

  /** A record is determined by its access flags and its seven references. */
  lemma SameRefsSameRecord(a: ClassDef, b: ClassDef)
    requires a.accessFlagValue == b.accessFlagValue
    requires forall f :: f != AccessFlags ==> RefOf(a, f) == RefOf(b, f)
    ensures a == b
  {
    assert RefOf(a, ClassType) == RefOf(b, ClassType) && RefOf(a, SuperClass) == RefOf(b, SuperClass);
    assert RefOf(a, Interfaces) == RefOf(b, Interfaces) && RefOf(a, SourceFile) == RefOf(b, SourceFile);
    assert RefOf(a, AnnotationsDirectory) == RefOf(b, AnnotationsDirectory);
    assert RefOf(a, ClassData) == RefOf(b, ClassData) && RefOf(a, StaticValues) == RefOf(b, StaticValues);
  }

  /** Refreshing a record twice in a row is the same as refreshing it once. */
  lemma RefreshIdempotent(c: ClassDef, secs: D.Sections)
    requires D.AllWellFormed(secs)
    ensures Refresh(Refresh(c, secs), secs) == Refresh(c, secs)
  {
    forall f | f != AccessFlags ensures RefOf(Refresh(Refresh(c, secs), secs), f) == RefOf(Refresh(c, secs), f) {
      RefreshSlotIdempotent(c, secs, f);
    }
    SameRefsSameRecord(Refresh(Refresh(c, secs), secs), Refresh(c, secs));
  }
}

=== FILE: class_layout.dfy ===
/** The field layout of a DEX `class_def_item`, as the `ClassId` constructor lays it out. */
module ClassLayout {
  import opened Reference

  /** The eight 32-bit slots of a class definition, in declaration order. */
  datatype Slot =
    | ClassType
    | AccessFlags
    | SuperClass
    | Interfaces
    | SourceFile
    | AnnotationsDirectory
    | ClassData
    | StaticValues

  /** Size in bytes of one class definition record. */
  const Size: int := 32

  /** The slots in the order the constructor creates them. */
  const Declared: seq<Slot> :=
    [ClassType, AccessFlags, SuperClass, Interfaces, SourceFile, AnnotationsDirectory, ClassData, StaticValues]

  /** The seven reference slots, in the order `refresh` and `cacheItems` visit them. */
  const ReferenceSlots: seq<Slot> :=
    [ClassType, SuperClass, Interfaces, SourceFile, AnnotationsDirectory, ClassData, StaticValues]

  /** Offsets handed to `count` consecutive fields when a running offset starts at `start`
      and every field takes `offset += 4` before it is created. */
  function FieldOffsets(start: int, count: nat): (r: seq<int>)
    ensures |r| == count
    ensures forall i :: 0 <= i < count ==> r[i] == start + 4 * (i + 1)
    decreases count
  {
    if count == 0 then [] else [start + 4] + FieldOffsets(start + 4, count - 1)
  }

  /** Position of a slot in declaration order. */
  function Position(s: Slot): (i: nat)
    ensures i < |Declared| && Declared[i] == s
  {
    match s
    case ClassType => 0
    case AccessFlags => 1
    case SuperClass => 2
    case Interfaces => 3
    case SourceFile => 4
    case AnnotationsDirectory => 5
    case ClassData => 6
    case StaticValues => 7
  }

  /** Byte offset of a slot: four bytes per slot, in declaration order. */
  function Offset(s: Slot): int {
    4 * Position(s)
  }

  /** The `class_def_item` table of the Dalvik Executable format, written out independently. */
  function FormatOffset(s: Slot): int {
    match s
    case ClassType => 0           // class_idx
    case AccessFlags => 4         // access_flags
    case SuperClass => 8          // superclass_idx
    case Interfaces => 12         // interfaces_off
    case SourceFile => 16         // source_file_idx
    case AnnotationsDirectory => 20  // annotations_off
    case ClassData => 24          // class_data_off
    case StaticValues => 28       // static_values_off
  }

  function AddressingOf(s: Slot): Addressing
    requires s != AccessFlags
  {
    match s
    case ClassType => ByIndex
    case SuperClass => ByIndex
    case SourceFile => ByIndex
    case _ => ByOffset
  }

  /** The constructor's running offset (starting at -4, advanced by 4 before each field) puts
      every slot where the format table says, inside the 32-byte record. */
  lemma LayoutMatchesFormat(s: Slot)
    ensures FieldOffsets(-4, |Declared|)[Position(s)] == Offset(s) == FormatOffset(s)
    ensures 0 <= Offset(s) && Offset(s) + 4 <= Size
  {
  }

  /** Distinct slots occupy disjoint byte ranges, and the eight ranges tile the record exactly. */
  lemma SlotsDisjoint(s: Slot, t: Slot)
    ensures s != t ==> Offset(s) + 4 <= Offset(t) || Offset(t) + 4 <= Offset(s)
    ensures Size == 4 * |Declared|
  {
    LayoutMatchesFormat(s);
    LayoutMatchesFormat(t);
  }

  /** The slot that owns byte `k` of the record. */
  function SlotAt(k: int): (f: Slot)
    requires 0 <= k < Size
    ensures Offset(f) <= k < Offset(f) + 4
  {
    Declared[k / 4]
  }

  /** The reference slots are the declared slots without the access-flags slot, in the same order. */
  lemma ReferenceSlotsInDeclarationOrder()
    ensures AccessFlags !in ReferenceSlots
    ensures ReferenceSlots == Declared[..1] + Declared[2..]
    ensures forall i, j :: 0 <= i < j < |ReferenceSlots| ==> Position(ReferenceSlots[i]) < Position(ReferenceSlots[j])
  {
  }
}

=== FILE: class_render.dfy ===
/** Which lines and blocks the smali renderer (`append`) and `toString` emit for a class
    definition. Both are pure functions of what the record's references resolve to at call
    time. Text produced by other writers (type descriptors, string data, annotation sets,
    class data, access-flag keywords) appears as opaque tokens. */
module ClassRender {
  import opened Wrappers
  import opened Words
  import opened Reference
  import opened ClassLayout
  import opened ClassId
  import D = DexItems

  /** The fixed pieces of text the two renderers write. */
  datatype Keyword =
    | ClassDirective | SuperDirective | SourceDirective         // `append`'s directives
    | InterfacesHeader | ImplementsDirective | AnnotationsHeader // `append`'s block headers and lines
    | ClassLine | SuperLine | SourceLine | CloseQuote           // `toString`'s lines
    | BlankLine | InterfacesLine | ImplementsLine | NullWord

  /** The exact characters of each fixed piece. */
  function KeywordText(k: Keyword): string {
    match k
    case ClassDirective => ".class "
    case SuperDirective => ".super "
    case SourceDirective => ".source "
    case InterfacesHeader => "# interfaces"
    case ImplementsDirective => ".implements "
    case AnnotationsHeader => "# annotations"
    case ClassLine => "\n.class "
    case SuperLine => "\n.super "
    case SourceLine => "\n.source \""
    case CloseQuote => "\""
    case BlankLine => "\n"
    case InterfacesLine => "\n# interfaces"
    case ImplementsLine => "\n.implements "
    case NullWord => "null"
  }

  datatype Token =
    | Lit(k: Keyword)                         // fixed text, `KeywordText(k)`
    | Text(s: string)                         // a string taken from the model's data
    | NewLine                                 // the writer's line break
    | FlagWords(flags: int)                   // each class access-flag keyword of `flags`, each followed by a space
    | TypeText(t: D.TypeId)                   // a type written by its own writer
    | TypeString(t: D.TypeId)                 // a type's `toString()`
    | SourceText(data: D.StringData)          // a string-data entry written by its own writer
    | AnnotationsText(a: D.AnnotationSet)     // an annotation set written by its own writer
    | ClassDataText(d: D.ClassData)           // fields and methods written by the class data's writer
    | Comment(note: string)                   // a comment line

  /** `append` dereferences the class type and the superclass without a null check. */
  datatype RenderError = NullDereference(slot: Slot, written: seq<Token>)

  /** What the renderers read from a record: its resolved references, its access flags and
      the raw stored class-data offset. */
  datatype View = View(
    flags: int,
    classType: Option<D.TypeId>,
    superClass: Option<D.TypeId>,
    sourceFile: Option<D.StringData>,
    interfaces: Option<D.TypeList>,
    annotations: Option<D.AnnotationSet>,
    classData: Option<D.ClassData>,
    classDataOffset: int)

  function Payload<T>(o: Option<Item<T>>): Option<T> {
    match o
    case Some(item) => Some(item.value)
    case None => None
  }

  /** The record as the renderers see it, through its getters. */
  function ViewOf(c: ClassDef, secs: D.Sections): View {
    View(GetAccessFlagValue(c), Payload(GetClassType(c, secs)), Payload(GetSuperClass(c, secs)),
         Payload(GetSourceFile(c, secs)), Payload(GetInterfaces(c, secs)), GetClassAnnotations(c, secs),
         Payload(GetClassData(c, secs)), c.classData.stored)
  }

  const NullClassDataPrefix: string := "Null class data: "

  /** One `.implements` line per interface, in list order. */
  function ImplementsLines(ts: seq<D.TypeId>): (r: seq<Token>)
    ensures |r| == 3 * |ts|
    ensures |r| > 0 ==> r[|r| - 1].TypeText?
    decreases |ts|
  {
    if |ts| == 0 then []
    else [NewLine, Lit(ImplementsDirective), TypeText(ts[0])] + ImplementsLines(ts[1..])
  }

  /** The `.implements` lines hold line breaks, `.implements ` markers and types only. */
  lemma {:induction false} ImplementsLinesTokens(ts: seq<D.TypeId>)
    ensures forall t :: t in ImplementsLines(ts) ==> t == NewLine || t == Lit(ImplementsDirective) || t.TypeText?
    decreases |ts|
  {
    if |ts| > 0 {
      ImplementsLinesTokens(ts[1..]);
    }
  }

  /** The `.class` and `.super` lines. */
  function Head(flags: int, t: D.TypeId, s: D.TypeId): seq<Token> {
    [Lit(ClassDirective), FlagWords(flags), TypeText(t), NewLine, Lit(SuperDirective), TypeText(s), NewLine]
  }

  function SourceBlock(src: Option<D.StringData>): seq<Token> {
    match src
    case Some(s) => [Lit(SourceDirective), SourceText(s), NewLine]
    case None => [NewLine]
  }

  /** The interfaces block: present only for a resolved, non-empty list. */
  function InterfacesBlock(list: Option<D.TypeList>): seq<Token> {
    if list.Some? && list.value.Size() > 0 then
      [NewLine, Lit(InterfacesHeader)] + ImplementsLines(list.value.typeIds)
    else []
  }

  /** The annotations block: present whenever the class annotation set resolves. */
  function AnnotationsBlock(annotations: Option<D.AnnotationSet>): seq<Token> {
    match annotations
    case Some(a) => [NewLine, NewLine, Lit(AnnotationsHeader), AnnotationsText(a)]
    case None => []
  }

  /** The body, or a diagnostic comment carrying the raw stored offset when class data is absent. */
  function BodyBlock(data: Option<D.ClassData>, offset: int): seq<Token> {
    match data
    case Some(d) => [NewLine, ClassDataText(d)]
    case None => [NewLine, Comment(NullClassDataPrefix + DecimalString(offset))]
  }

  /** Everything after the `.super` line. */
  function Blocks(v: View): seq<Token> {
    SourceBlock(v.sourceFile) + InterfacesBlock(v.interfaces) + AnnotationsBlock(v.annotations)
      + BodyBlock(v.classData, v.classDataOffset)
  }

  /** `append(SmaliWriter)` on a resolved record: fails exactly when the class type or the
      superclass is absent (reporting the first of the two and what was written before it);
      otherwise the header lines followed by the optional blocks. */
  function AppendView(v: View): (r: Result<seq<Token>, RenderError>)
    ensures r.Failure? <==> v.classType.None? || v.superClass.None?
    ensures v.classType.None? ==> r.Failure? && r.error.slot == ClassType
    ensures v.classType.Some? && v.superClass.None? ==> r.Failure? && r.error.slot == SuperClass
    ensures r.Success? ==> |r.value| >= 7 && r.value[..7] == Head(v.flags, v.classType.value, v.superClass.value)
  {
    var header := [Lit(ClassDirective), FlagWords(v.flags)];
    match v.classType
    case None => Failure(NullDereference(ClassType, header))
    case Some(t) =>
      match v.superClass
      case None => Failure(NullDereference(SuperClass, header + [TypeText(t), NewLine, Lit(SuperDirective)]))
      case Some(s) =>
        var out := Head(v.flags, t, s) + Blocks(v);
        assert out[..7] == Head(v.flags, t, s);
        Success(out)
  }

  /** `append(SmaliWriter)`: it fails exactly when `getClassType()` or `getSuperClass()` is
      null, at the first of the two; otherwise its `.source` line, its `.implements` lines,
      its `# annotations` block and its class data show what the getters return. */
  function Append(c: ClassDef, secs: D.Sections): (r: Result<seq<Token>, RenderError>)
    ensures r.Failure? <==> GetClassType(c, secs).None? || GetSuperClass(c, secs).None?
    ensures r.Failure? ==> r.error.slot == if GetClassType(c, secs).None? then ClassType else SuperClass
    ensures r.Success? ==> (Lit(SourceDirective) in r.value <==> GetSourceFile(c, secs).Some?)
    ensures r.Success? ==> Implemented(r.value) == InterfaceList(ViewOf(c, secs))
    ensures r.Success? ==> (Lit(AnnotationsHeader) in r.value <==> GetClassAnnotations(c, secs).Some?)
    ensures r.Success? ==> forall s :: SourceText(s) in r.value <==> Payload(GetSourceFile(c, secs)) == Some(s)
    ensures r.Success? ==> forall a :: AnnotationsText(a) in r.value <==> GetClassAnnotations(c, secs) == Some(a)
    ensures r.Success? ==> forall d :: ClassDataText(d) in r.value <==> Payload(GetClassData(c, secs)) == Some(d)
  {
    var v := ViewOf(c, secs);
    if Renderable(v) then
      AppendSourceLine(v); AppendImplements(v); AppendAnnotations(v); AppendClassData(v);
      AppendView(v)
    else AppendView(v)
  }

  /** Java's string conversion of a possibly-null type. */
  function TypeOrNull(t: Option<D.TypeId>): Token {
    match t
    case Some(x) => TypeString(x)
    case None => Lit(NullWord)
  }

  function ToStringImplements(ts: seq<D.TypeId>): (r: seq<Token>)
    ensures |r| == 2 * |ts|
    ensures forall t :: t in r ==> t == Lit(ImplementsLine) || t.TypeString?
    decreases |ts|
  {
    if |ts| == 0 then []
    else [Lit(ImplementsLine), TypeString(ts[0])] + ToStringImplements(ts[1..])
  }

  /** `toString()` on a resolved record. */
  function ToStringView(v: View): seq<Token> {
    [Lit(ClassLine), FlagWords(v.flags), TypeOrNull(v.classType), Lit(SuperLine), TypeOrNull(v.superClass)]
    + (match v.sourceFile
       case Some(s) => [Lit(SourceLine), Text(s.text), Lit(CloseQuote)]
       case None => [])
    + [Lit(BlankLine)]
    + (match v.interfaces
       case Some(l) => [Lit(InterfacesLine)] + ToStringImplements(l.typeIds)
       case None => [])
  }

  /** `toString()`: it never fails; it prints the interfaces header exactly when
      `getInterfaces()` is non-null and quotes the source file exactly when `getSourceFile()`
      is, and it shows no annotations, class data or comment. */
  function ToString(c: ClassDef, secs: D.Sections): (r: seq<Token>)
    ensures Lit(InterfacesLine) in r <==> GetInterfaces(c, secs).Some?
    ensures Lit(SourceLine) in r <==> GetSourceFile(c, secs).Some?
    ensures forall t :: t in r ==> !t.AnnotationsText? && !t.ClassDataText? && !t.Comment?
  {
    var v := ViewOf(c, secs);
    ToStringInterfacesHeader(v); ToStringSourceLine(v); ToStringOmitsBody(v);
    ToStringView(v)
  }

  // ---------------------------------------------------------------- reading the output back

  /** The types named on `.implements` lines, in output order. */
  function Implemented(ts: seq<Token>): seq<D.TypeId>
    decreases |ts|
  {
    if |ts| < 2 then []
    else if ts[0] == Lit(ImplementsDirective) && ts[1].TypeText? then [ts[1].t] + Implemented(ts[2..])
    else Implemented(ts[1..])
  }

  lemma {:induction false} ImplementedNone(ts: seq<Token>)
    requires Lit(ImplementsDirective) !in ts
    ensures Implemented(ts) == []
    decreases |ts|
  {
    if |ts| >= 2 {
      assert ts[1..][0] == ts[1];
      ImplementedNone(ts[1..]);
    }
  }

  lemma {:induction false} ImplementedConcat(a: seq<Token>, b: seq<Token>)
    requires |a| == 0 || a[|a| - 1] != Lit(ImplementsDirective)
    ensures Implemented(a + b) == Implemented(a) + Implemented(b)
    decreases |a|
  {
    if |a| == 0 {
      assert a + b == b;
    } else if |a| == 1 {
      if |b| > 0 {
        assert (a + b)[1..] == b;
      }
    } else {
      assert (a + b)[0] == a[0] && (a + b)[1] == a[1];
      if a[0] == Lit(ImplementsDirective) && a[1].TypeText? {
        assert (a + b)[2..] == a[2..] + b;
        ImplementedConcat(a[2..], b);
      } else {
        assert (a + b)[1..] == a[1..] + b;
        ImplementedConcat(a[1..], b);
      }
    }
  }

  /** A token other than `.implements ` in front adds no interface. */
  lemma ImplementedSkip(t: Token, rest: seq<Token>)
    requires t != Lit(ImplementsDirective)
    ensures Implemented([t] + rest) == Implemented(rest)
  {
    if |rest| > 0 {
      assert ([t] + rest)[1..] == rest;
    }
  }

  /** An `.implements ` line in front adds its type. */
  lemma ImplementedTake(ty: D.TypeId, rest: seq<Token>)
    ensures Implemented([Lit(ImplementsDirective), TypeText(ty)] + rest) == [ty] + Implemented(rest)
  {
    assert ([Lit(ImplementsDirective), TypeText(ty)] + rest)[2..] == rest;
  }

  /** Reading the `.implements` lines back gives the interface list. */
  lemma {:induction false} ImplementedLinesRoundTrip(ts: seq<D.TypeId>)
    ensures Implemented(ImplementsLines(ts)) == ts
    decreases |ts|
  {
    if |ts| > 0 {
      var rest := ImplementsLines(ts[1..]);
      var tail := [Lit(ImplementsDirective), TypeText(ts[0])] + rest;
      calc {
        Implemented(ImplementsLines(ts));
        { assert ImplementsLines(ts) == [NewLine] + tail; }
        Implemented([NewLine] + tail);
        { ImplementedSkip(NewLine, tail); }
        Implemented(tail);
        { ImplementedTake(ts[0], rest); }
        [ts[0]] + Implemented(rest);
        { ImplementedLinesRoundTrip(ts[1..]); }
        [ts[0]] + ts[1..];
      }
      assert [ts[0]] + ts[1..] == ts;
    }
  }

  // ---------------------------------------------------------------- block selection

  function InterfaceList(v: View): seq<D.TypeId> {
    match v.interfaces
    case Some(l) => l.typeIds
    case None => []
  }

  predicate Renderable(v: View) {
    v.classType.Some? && v.superClass.Some?
  }

  lemma HeadHasNoBlockMarkers(flags: int, t: D.TypeId, s: D.TypeId)
    ensures var h := Head(flags, t, s);
      && Lit(SourceDirective) !in h && Lit(InterfacesHeader) !in h && Lit(AnnotationsHeader) !in h
      && Lit(ImplementsDirective) !in h && (forall x :: x in h ==> !x.ClassDataText? && !x.Comment?)
  {
  }

  /** A token is in `append`'s output exactly when it is in one of its parts. */
  lemma InAppend(v: View, x: Token)
    requires Renderable(v)
    ensures x in AppendView(v).value <==>
      || x in Head(v.flags, v.classType.value, v.superClass.value)
      || x in SourceBlock(v.sourceFile) || x in InterfacesBlock(v.interfaces)
      || x in AnnotationsBlock(v.annotations) || x in BodyBlock(v.classData, v.classDataOffset)
  {
    assert AppendView(v).value
        == Head(v.flags, v.classType.value, v.superClass.value) + SourceBlock(v.sourceFile)
           + InterfacesBlock(v.interfaces) + AnnotationsBlock(v.annotations)
           + BodyBlock(v.classData, v.classDataOffset);
  }

  /** The interfaces block holds line breaks, its header, `.implements ` markers and types only. */
  lemma InterfacesBlockTokens(list: Option<D.TypeList>)
    ensures forall x :: x in InterfacesBlock(list) ==>
      x == NewLine || x == Lit(InterfacesHeader) || x == Lit(ImplementsDirective) || x.TypeText?
  {
    if list.Some? && list.value.Size() > 0 {
      ImplementsLinesTokens(list.value.typeIds);
    }
  }

  /** `.source` appears exactly when the source file resolves, and the string data written is
      the resolved one. */
  lemma AppendSourceLine(v: View)
    requires Renderable(v)
    ensures Lit(SourceDirective) in AppendView(v).value <==> v.sourceFile.Some?
    ensures forall s :: SourceText(s) in AppendView(v).value <==> v.sourceFile == Some(s)
  {
    InAppend(v, Lit(SourceDirective));
    InterfacesBlockTokens(v.interfaces);
    forall s ensures SourceText(s) in AppendView(v).value <==> v.sourceFile == Some(s) {
      InAppend(v, SourceText(s));
    }
  }

  /** The interfaces header appears exactly for a resolved, non-empty list. */
  lemma AppendInterfacesHeader(v: View)
    requires Renderable(v)
    ensures Lit(InterfacesHeader) in AppendView(v).value <==> v.interfaces.Some? && |InterfaceList(v)| > 0
  {
    InAppend(v, Lit(InterfacesHeader));
    if v.interfaces.Some? && |InterfaceList(v)| > 0 {
      assert InterfacesBlock(v.interfaces)[1] == Lit(InterfacesHeader);
    }
  }

  /** The interfaces block reads back as the interface list (empty when the block is omitted). */
  lemma ImplementedInterfacesBlock(v: View)
    ensures Implemented(InterfacesBlock(v.interfaces)) == InterfaceList(v)
  {
    if InterfacesBlock(v.interfaces) != [] {
      var lines := ImplementsLines(InterfaceList(v));
      assert InterfacesBlock(v.interfaces) == [NewLine] + ([Lit(InterfacesHeader)] + lines);
      ImplementedSkip(NewLine, [Lit(InterfacesHeader)] + lines);
      ImplementedSkip(Lit(InterfacesHeader), lines);
      ImplementedLinesRoundTrip(InterfaceList(v));
    }
  }

  /** The interfaces block never ends in a dangling `.implements ` marker. */
  lemma InterfacesBlockEnd(list: Option<D.TypeList>)
    ensures var ifs := InterfacesBlock(list); |ifs| == 0 || ifs[|ifs| - 1].TypeText?
  {
  }

  /** Everything before the interfaces block names no interface and ends in a line break. */
  lemma ImplementedFront(v: View)
    requires Renderable(v)
    ensures var front := Head(v.flags, v.classType.value, v.superClass.value) + SourceBlock(v.sourceFile);
      Implemented(front) == [] && front[|front| - 1] == NewLine
  {
    var front := Head(v.flags, v.classType.value, v.superClass.value) + SourceBlock(v.sourceFile);
    HeadHasNoBlockMarkers(v.flags, v.classType.value, v.superClass.value);
    assert Lit(ImplementsDirective) !in SourceBlock(v.sourceFile);
    ImplementedNone(front);
  }

  /** Everything after the interfaces block names no interface. */
  lemma ImplementedBack(v: View)
    ensures Implemented(AnnotationsBlock(v.annotations) + BodyBlock(v.classData, v.classDataOffset)) == []
  {
    var back := AnnotationsBlock(v.annotations) + BodyBlock(v.classData, v.classDataOffset);
    assert Lit(ImplementsDirective) !in back;
    ImplementedNone(back);
  }

  /** `append`'s output split around the interfaces block. */
  lemma AppendAroundInterfaces(v: View)
    requires Renderable(v)
    ensures AppendView(v).value
      == (Head(v.flags, v.classType.value, v.superClass.value) + SourceBlock(v.sourceFile))
         + (InterfacesBlock(v.interfaces) + (AnnotationsBlock(v.annotations) + BodyBlock(v.classData, v.classDataOffset)))
  {
  }

  /** The `.implements` lines name exactly the interface list's types, in order. */
  lemma AppendImplements(v: View)
    requires Renderable(v)
    ensures Implemented(AppendView(v).value) == InterfaceList(v)
  {
    var front := Head(v.flags, v.classType.value, v.superClass.value) + SourceBlock(v.sourceFile);
    var ifs := InterfacesBlock(v.interfaces);
    var back := AnnotationsBlock(v.annotations) + BodyBlock(v.classData, v.classDataOffset);
    AppendAroundInterfaces(v);
    ImplementedFront(v);
    ImplementedInterfacesBlock(v);
    InterfacesBlockEnd(v.interfaces);
    ImplementedBack(v);
    ImplementedConcat(ifs, back);
    ImplementedConcat(front, ifs + back);
  }

  /** The annotations header appears exactly when the class annotation set resolves, and the
      set written is the resolved one. */
  lemma AppendAnnotations(v: View)
    requires Renderable(v)
    ensures Lit(AnnotationsHeader) in AppendView(v).value <==> v.annotations.Some?
    ensures forall a :: AnnotationsText(a) in AppendView(v).value <==> v.annotations == Some(a)
  {
    InAppend(v, Lit(AnnotationsHeader));
    InterfacesBlockTokens(v.interfaces);
    if v.annotations.Some? {
      assert AnnotationsBlock(v.annotations)[2] == Lit(AnnotationsHeader);
    }
    forall a ensures AnnotationsText(a) in AppendView(v).value <==> v.annotations == Some(a) {
      InAppend(v, AnnotationsText(a));
      if v.annotations == Some(a) {
        assert AnnotationsBlock(v.annotations)[3] == AnnotationsText(a);
      }
    }
  }

  /** Only the body block can hold class data or a comment. */
  lemma BodyTokensOnlyInBody(v: View, x: Token)
    requires Renderable(v) && (x.ClassDataText? || x.Comment?)
    ensures x in AppendView(v).value <==> x in BodyBlock(v.classData, v.classDataOffset)
  {
    InAppend(v, x);
    InterfacesBlockTokens(v.interfaces);
  }

  /** Class data is rendered exactly when it resolves, and what is rendered is the resolved
      class data. */
  lemma AppendClassData(v: View)
    requires Renderable(v)
    ensures (exists d :: ClassDataText(d) in AppendView(v).value) <==> v.classData.Some?
    ensures forall d :: ClassDataText(d) in AppendView(v).value <==> v.classData == Some(d)
  {
    forall d ensures ClassDataText(d) in AppendView(v).value <==> v.classData == Some(d) {
      BodyTokensOnlyInBody(v, ClassDataText(d));
      if v.classData == Some(d) {
        assert BodyBlock(v.classData, v.classDataOffset)[1] == ClassDataText(d);
      }
    }
    if v.classData.Some? {
      BodyTokensOnlyInBody(v, ClassDataText(v.classData.value));
      assert BodyBlock(v.classData, v.classDataOffset)[1] == ClassDataText(v.classData.value);
    } else {
      forall d ensures ClassDataText(d) !in AppendView(v).value {
        BodyTokensOnlyInBody(v, ClassDataText(d));
      }
    }
  }

  /** When class data is absent, the diagnostic comment carrying the raw stored offset takes
      its place; it never appears otherwise. */
  lemma AppendNullClassDataComment(v: View)
    requires Renderable(v)
    ensures Comment(NullClassDataPrefix + DecimalString(v.classDataOffset)) in AppendView(v).value
            <==> v.classData.None?
  {
    var note := Comment(NullClassDataPrefix + DecimalString(v.classDataOffset));
    BodyTokensOnlyInBody(v, note);
    if v.classData.None? {
      assert BodyBlock(v.classData, v.classDataOffset)[1] == note;
    }
  }

  /** The diagnostic comment for absent class data is the last thing written, and the
      stored offset reads back from it. */
  lemma NullClassDataComment(v: View)
    requires Renderable(v) && v.classData.None?
    ensures var out := AppendView(v).value;
      && out[|out| - 1].Comment?
      && out[|out| - 1].note[..|NullClassDataPrefix|] == NullClassDataPrefix
      && IsDecimal(out[|out| - 1].note[|NullClassDataPrefix|..])
      && DecimalValue(out[|out| - 1].note[|NullClassDataPrefix|..]) == v.classDataOffset
  {
    var text := NullClassDataPrefix + DecimalString(v.classDataOffset);
    var out := AppendView(v).value;
    assert out[|out| - 1] == Comment(text);
    assert text[|NullClassDataPrefix|..] == DecimalString(v.classDataOffset);
    DecimalRoundTrip(v.classDataOffset);
  }

  /** The parts of `toString`'s output. */
  lemma ToStringParts(v: View)
    ensures ToStringView(v) ==
      [Lit(ClassLine), FlagWords(v.flags), TypeOrNull(v.classType), Lit(SuperLine), TypeOrNull(v.superClass)]
      + ToStringSource(v.sourceFile) + [Lit(BlankLine)] + ToStringInterfaces(v.interfaces)
  {
  }

  function ToStringSource(src: Option<D.StringData>): seq<Token> {
    match src
    case Some(s) => [Lit(SourceLine), Text(s.text), Lit(CloseQuote)]
    case None => []
  }

  function ToStringInterfaces(list: Option<D.TypeList>): seq<Token> {
    match list
    case Some(l) => [Lit(InterfacesLine)] + ToStringImplements(l.typeIds)
    case None => []
  }

  /** `toString` shows the interfaces header exactly for a resolved interface list, even an
      empty one. */
  lemma ToStringInterfacesHeader(v: View)
    ensures Lit(InterfacesLine) in ToStringView(v) <==> v.interfaces.Some?
  {
    ToStringParts(v);
    if v.interfaces.Some? {
      assert ToStringInterfaces(v.interfaces)[0] == Lit(InterfacesLine);
    }
  }

  /** `toString` quotes the source file exactly when it resolves. */
  lemma ToStringSourceLine(v: View)
    ensures v.sourceFile.Some? ==> Lit(SourceLine) in ToStringView(v) && Text(v.sourceFile.value.text) in ToStringView(v)
    ensures v.sourceFile.None? ==> Lit(SourceLine) !in ToStringView(v)
  {
    ToStringParts(v);
    assert Lit(SourceLine) !in ToStringInterfaces(v.interfaces);
  }

  /** `toString` never shows annotations, class data or comments. */
  lemma ToStringOmitsBody(v: View)
    ensures forall t :: t in ToStringView(v) ==> !t.AnnotationsText? && !t.ClassDataText? && !t.Comment?
  {
    ToStringParts(v);
  }

  /** The two renderers disagree on a resolved but empty interface list: `toString` prints the
      header, `append` does not. */
  lemma EmptyInterfacesDiffer(v: View)
    requires Renderable(v) && v.interfaces.Some? && v.interfaces.value.Size() == 0
    ensures Lit(InterfacesHeader) !in AppendView(v).value
    ensures Lit(InterfacesLine) in ToStringView(v)
  {
    AppendInterfacesHeader(v);
    ToStringInterfacesHeader(v);
  }
  /** A public class `Lcom/x/A;` with no superclass set, one interface `Lcom/x/I;` and no source
      file, annotations or class data: `append` stops at the superclass, after writing the
      `.class` line and `.super `. With the superclass `Ljava/lang/Object;` set it runs to the
      end, lists the interface, and closes with the comment for the absent class data. */
  lemma UnsetSuperclassExample()
    ensures var a := D.TypeId("Lcom/x/A;");
      var v := View(1, Some(a), None, None, Some(D.TypeList([D.TypeId("Lcom/x/I;")])), None, None, 0);
      AppendView(v) == Failure(NullDereference(SuperClass,
        [Lit(ClassDirective), FlagWords(1), TypeText(a), NewLine, Lit(SuperDirective)]))
    ensures var a := D.TypeId("Lcom/x/A;");
      var o := D.TypeId("Ljava/lang/Object;");
      var i := D.TypeId("Lcom/x/I;");
      var v := View(1, Some(a), Some(o), None, Some(D.TypeList([i])), None, None, 0);
      AppendView(v) == Success(
        [Lit(ClassDirective), FlagWords(1), TypeText(a), NewLine, Lit(SuperDirective), TypeText(o), NewLine,
         NewLine,
         NewLine, Lit(InterfacesHeader), NewLine, Lit(ImplementsDirective), TypeText(i),
         NewLine, Comment("Null class data: 0")])
  {
    var a := D.TypeId("Lcom/x/A;");
    var o := D.TypeId("Ljava/lang/Object;");
    var i := D.TypeId("Lcom/x/I;");
    var list := Some(D.TypeList([i]));
    assert [Lit(ClassDirective), FlagWords(1)] + [TypeText(a), NewLine, Lit(SuperDirective)]
        == [Lit(ClassDirective), FlagWords(1), TypeText(a), NewLine, Lit(SuperDirective)];
    assert ImplementsLines([i]) == [NewLine, Lit(ImplementsDirective), TypeText(i)] by {
      assert [i][1..] == [];
    }
    assert InterfacesBlock(list) == [NewLine, Lit(InterfacesHeader), NewLine, Lit(ImplementsDirective), TypeText(i)];
    assert DecimalString(0) == "0";
    assert NullClassDataPrefix + "0" == "Null class data: 0";
    var v := View(1, Some(a), Some(o), None, list, None, None, 0);
    assert Blocks(v) == [NewLine] + InterfacesBlock(list) + [] + [NewLine, Comment("Null class data: 0")];
    assert AppendView(v).value == Head(1, a, o) + Blocks(v);
    assert Head(1, a, o) + Blocks(v) ==
        [Lit(ClassDirective), FlagWords(1), TypeText(a), NewLine, Lit(SuperDirective), TypeText(o), NewLine,
         NewLine,
         NewLine, Lit(InterfacesHeader), NewLine, Lit(ImplementsDirective), TypeText(i),
         NewLine, Comment("Null class data: 0")];
  }

  // ---------------------------------------------------------------- the caches rendering fills

  /** The slots `append` reads through `getItem()`, in order, up to a null dereference; the
      class annotations are read through the annotations directory. */
  function AppendReads(c: ClassDef, secs: D.Sections): (fs: seq<Slot>)
    ensures AccessFlags !in fs && NoDuplicates(fs)
    ensures StaticValues !in fs
  {
    if GetClassType(c, secs).None? then [ClassType]
    else if GetSuperClass(c, secs).None? then [ClassType, SuperClass]
    else [ClassType, SuperClass, SourceFile, Interfaces, AnnotationsDirectory, ClassData]
  }

  /** The slots `toString()` reads through `getItem()`, in order. */
  const ToStringReads: seq<Slot> := [ClassType, SuperClass, SourceFile, Interfaces]

  /** The record `append` leaves behind: every reference it read holds its answer as `Touch`
      leaves it, and every other reference is untouched. */
  function AppendRecord(c: ClassDef, secs: D.Sections): (d: ClassDef)
    ensures d.accessFlagValue == c.accessFlagValue
    ensures forall f :: f != AccessFlags ==>
      RefOf(d, f) == if f in AppendReads(c, secs) then RefOf(Touch(c, f, secs), f) else RefOf(c, f)
  {
    SweepPointwise(c, secs, CachePass, AppendReads(c, secs));
    Sweep(c, secs, CachePass, AppendReads(c, secs))
  }

  /** The record `toString()` leaves behind, in the same sense. */
  function ToStringRecord(c: ClassDef, secs: D.Sections): (d: ClassDef)
    ensures d.accessFlagValue == c.accessFlagValue
    ensures forall f :: f != AccessFlags ==>
      RefOf(d, f) == if f in ToStringReads then RefOf(Touch(c, f, secs), f) else RefOf(c, f)
  {
    assert NoDuplicates(ToStringReads);
    SweepPointwise(c, secs, CachePass, ToStringReads);
    Sweep(c, secs, CachePass, ToStringReads)
  }

  /** A successful `append` fills the same caches `cacheItems()` fills, except the static
      values, which it never reads. */
  lemma AppendCachesLikeCacheItems(c: ClassDef, secs: D.Sections)
    requires Append(c, secs).Success?
    ensures forall f :: f != AccessFlags && f != StaticValues ==> RefOf(AppendRecord(c, secs), f) == RefOf(CacheItems(c, secs), f)
    ensures RefOf(AppendRecord(c, secs), StaticValues) == RefOf(c, StaticValues)
  {
    FullReadCachesLikeCacheItems(c, secs);
  }

  /** When both header types resolve, `append` reads six references, and each ends up as
      `cacheItems()` leaves it. */
  lemma FullReadCachesLikeCacheItems(c: ClassDef, secs: D.Sections)
    requires GetClassType(c, secs).Some? && GetSuperClass(c, secs).Some?
    ensures forall f :: f != AccessFlags && f != StaticValues ==> RefOf(AppendRecord(c, secs), f) == RefOf(CacheItems(c, secs), f)
  {
    assert AppendReads(c, secs) == [ClassType, SuperClass, SourceFile, Interfaces, AnnotationsDirectory, ClassData];
    forall f | f != AccessFlags && f != StaticValues
      ensures RefOf(AppendRecord(c, secs), f) == RefOf(CacheItems(c, secs), f)
    {
      ReadSlotCachesLikeCacheItems(c, secs, f);
    }
  }

  /** A reference `append` reads ends up as `cacheItems()` leaves it. */
  lemma ReadSlotCachesLikeCacheItems(c: ClassDef, secs: D.Sections, f: Slot)
    requires f in AppendReads(c, secs)
    ensures RefOf(AppendRecord(c, secs), f) == RefOf(CacheItems(c, secs), f)
  {
    ReferenceSlotsDistinct();
    SweepPointwise(c, secs, CachePass, ReferenceSlots);
    assert RefOf(Touch(c, f, secs), f) == StepRef(f, RefOf(c, f), secs, CachePass);
  }

  /** Records whose references resolve alike, with the same flags and class-data integer, look
      the same to both renderers. */
  lemma SameTargetsSameView(a: ClassDef, b: ClassDef, secs: D.Sections)
    requires D.AllWellFormed(secs)
    requires a.accessFlagValue == b.accessFlagValue && a.classData.stored == b.classData.stored
    requires forall f :: f != AccessFlags ==> Target(a, f, secs) == Target(b, f, secs)
    ensures ViewOf(a, secs) == ViewOf(b, secs)
  {
    assert Target(a, ClassType, secs) == Target(b, ClassType, secs);
    SameKeySameItem(secs.typeIds, GetClassType(a, secs), GetClassType(b, secs));
    assert Target(a, SuperClass, secs) == Target(b, SuperClass, secs);
    SameKeySameItem(secs.typeIds, GetSuperClass(a, secs), GetSuperClass(b, secs));
    assert Target(a, SourceFile, secs) == Target(b, SourceFile, secs);
    SameKeySameItem(secs.strings, GetSourceFile(a, secs), GetSourceFile(b, secs));
    assert Target(a, Interfaces, secs) == Target(b, Interfaces, secs);
    SameKeySameItem(secs.typeLists, GetInterfaces(a, secs), GetInterfaces(b, secs));
    assert Target(a, AnnotationsDirectory, secs) == Target(b, AnnotationsDirectory, secs);
    SameKeySameItem(secs.annotationsDirectories, GetAnnotationsDirectory(a, secs), GetAnnotationsDirectory(b, secs));
    assert Target(a, ClassData, secs) == Target(b, ClassData, secs);
    SameKeySameItem(secs.classDatas, GetClassData(a, secs), GetClassData(b, secs));
  }

  /** The caches `append` fills change no integer of the record and no getter's answer: a
      second `append` writes exactly what the first one wrote. */
  lemma AppendAgain(c: ClassDef, secs: D.Sections)
    requires D.AllWellFormed(secs)
    ensures forall f :: Stored(AppendRecord(c, secs), f) == Stored(c, f)
    ensures Append(AppendRecord(c, secs), secs) == Append(c, secs)
  {
    var d := AppendRecord(c, secs);
    forall f | f != AccessFlags
      ensures Target(d, f, secs) == Target(c, f, secs) && RefOf(d, f).stored == RefOf(c, f).stored
    {
      if f in AppendReads(c, secs) {
        TargetDependsOnSlot(d, Touch(c, f, secs), f, secs);
      } else {
        TargetDependsOnSlot(d, c, f, secs);
      }
    }
    assert RefOf(d, ClassData).stored == RefOf(c, ClassData).stored;
    SameTargetsSameView(d, c, secs);
  }

  /** Likewise a second `toString()` prints exactly what the first one printed. */
  lemma ToStringAgain(c: ClassDef, secs: D.Sections)
    requires D.AllWellFormed(secs)
    ensures forall f :: Stored(ToStringRecord(c, secs), f) == Stored(c, f)
    ensures ToString(ToStringRecord(c, secs), secs) == ToString(c, secs)
  {
    var d := ToStringRecord(c, secs);
    forall f | f != AccessFlags
      ensures Target(d, f, secs) == Target(c, f, secs) && RefOf(d, f).stored == RefOf(c, f).stored
    {
      if f in ToStringReads {
        TargetDependsOnSlot(d, Touch(c, f, secs), f, secs);
      } else {
        TargetDependsOnSlot(d, c, f, secs);
      }
    }
    assert RefOf(d, ClassData).stored == RefOf(c, ClassData).stored;
    SameTargetsSameView(d, c, secs);
  }
}

=== FILE: dex_items.dfy ===
/** The records a class definition refers to, reduced to what the class definition reads
    from them, and the sections that hold them. */
module DexItems {
  import opened Wrappers
  import opened Reference

  /** A type identifier; `getName()` is its descriptor, e.g. `Lcom/x/A;`. */
  datatype TypeId = TypeId(name: string)

  /** An entry of the string-data section. */
  datatype StringData = StringData(text: string)

  /** A type list; its elements are the types it lists, in order. */
  datatype TypeList = TypeList(typeIds: seq<TypeId>) {
    function Size(): nat {
      |typeIds|
    }
  }

  /** Annotation content is rendered by its own writer and is opaque here. */
  datatype AnnotationSet = AnnotationSet(content: seq<string>)

  /** An annotations directory; the class-level set may itself be absent. */
  datatype AnnotationsDirectory = AnnotationsDirectory(classAnnotations: Option<AnnotationSet>)

  /** Field and method bodies are rendered by their own writer and are opaque here. */
  datatype ClassData = ClassData(content: seq<string>)

  /** An encoded constant; opaque here. */
  datatype DexValue = DexValue(content: string)

  datatype EncodedArray = EncodedArray(values: seq<DexValue>) {
    /** Element `i` when it exists, otherwise absent. */
    function Get(i: int): (v: Option<DexValue>)
      ensures v.Some? <==> 0 <= i < |values|
      ensures v.Some? ==> v.value == values[i]
    {
      if 0 <= i < |values| then Some(values[i]) else None
    }
  }

  /** The six sections a class definition refers into. */
  datatype Sections = Sections(
    typeIds: Section<TypeId>,
    strings: Section<StringData>,
    typeLists: Section<TypeList>,
    annotationsDirectories: Section<AnnotationsDirectory>,
    classDatas: Section<ClassData>,
    encodedArrays: Section<EncodedArray>)

  predicate AllWellFormed(secs: Sections) {
    && WellFormed(secs.typeIds)
    && WellFormed(secs.strings)
    && WellFormed(secs.typeLists)
    && WellFormed(secs.annotationsDirectories)
    && WellFormed(secs.classDatas)
    && WellFormed(secs.encodedArrays)
  }
}

=== FILE: reference.dfy ===
/** Index and offset references into per-kind sections.

    The reference classes themselves are not part of this model; what follows is the
    get / set / refresh contract the class-definition record relies on, written as
    definitions:
    - a reference holds a stored integer and, once resolved, the identity (key) of its target;
    - `Get` returns the live record with the cached identity (absent once that record was
      removed), and otherwise resolves the stored integer;
    - `Set` stores the target's current index or offset and caches it, or the absent
      sentinel for `null`;
    - `Refresh` re-derives the stored integer from the resolved target. */
module Reference {
  import opened Wrappers
  import opened Words

  /** Identity of a record: what a cached Java object reference distinguishes. */
  type Key = nat

  /** A record placed in a section: its identity, its current byte offset, its payload. */
  datatype Item<T> = Item(key: Key, offset: int, value: T)

  /** An ordered per-kind collection; a record's index is its position. */
  type Section<T> = seq<Item<T>>

  datatype Addressing = ByIndex | ByOffset

  /** A reference slot: the integer written in the record, and the cached target if resolved. */
  datatype Ref = Ref(stored: int, cached: Option<Key>)

  /** The stored value meaning "no target": NO_INDEX (0xFFFFFFFF, read as -1) or offset 0. */
  function Absent(mode: Addressing): int {
    match mode
    case ByIndex => -1
    case ByOffset => 0
  }

  /** A freshly read reference: stored integer, nothing cached yet. */
  function Parsed(stored: int): Ref {
    Ref(stored, None)
  }

  /** Index to record and offset to record are both one-to-one, and every index and
      offset fits the 32-bit slot that stores it; offset 0 is never occupied. */
  predicate WellFormed<T>(s: Section<T>) {
    && |s| <= Int32Max + 1
    && (forall i :: 0 <= i < |s| ==> 0 < s[i].offset <= Int32Max)
    && (forall i, j :: 0 <= i < j < |s| ==> s[i].key != s[j].key && s[i].offset != s[j].offset)
  }

  /** Position of the record with identity `k`, if it is still in the section. */
  function FindKey<T>(s: Section<T>, k: Key): (r: Option<nat>)
    ensures r.Some? ==> r.value < |s| && s[r.value].key == k
    ensures r.None? <==> forall i :: 0 <= i < |s| ==> s[i].key != k
  {
    if |s| == 0 then None
    else if s[0].key == k then Some(0)
    else match FindKey(s[1..], k)
      case None => None
      case Some(j) => Some(j + 1)
  }

  /** Position of the record currently at byte offset `off`, if any. */
  function FindOffset<T>(s: Section<T>, off: int): (r: Option<nat>)
    ensures r.Some? ==> r.value < |s| && s[r.value].offset == off
    ensures r.None? <==> forall i :: 0 <= i < |s| ==> s[i].offset != off
  {
    if |s| == 0 then None
    else if s[0].offset == off then Some(0)
    else match FindOffset(s[1..], off)
      case None => None
      case Some(j) => Some(j + 1)
  }

  /** Resolves a stored integer alone: the Nth record, or the record at that offset. */
  function Resolve<T>(mode: Addressing, stored: int, s: Section<T>): (r: Option<Item<T>>)
    ensures r.Some? ==> r.value in s
    ensures mode == ByIndex ==> (r.Some? <==> 0 <= stored < |s|) && (r.Some? ==> r.value == s[stored])
    ensures mode == ByOffset ==> (r.Some? ==> stored != 0 && r.value.offset == stored)
    ensures mode == ByOffset && r.None? ==> stored == 0 || forall i :: 0 <= i < |s| ==> s[i].offset != stored
  {
    match mode
    case ByIndex => if 0 <= stored < |s| then Some(s[stored]) else None
    case ByOffset =>
      if stored == 0 then None
      else match FindOffset(s, stored)
        case None => None
        case Some(i) => Some(s[i])
  }

  /** What `getItem()` promises of the item it returns: a record of the section; while a
      target is cached, that target exactly as long as it is still in the section; otherwise
      whatever the stored integer locates. */
  ghost predicate Fetched<T>(mode: Addressing, r: Ref, s: Section<T>, item: Option<Item<T>>) {
    && (item.Some? ==> item.value in s)
    && (r.cached.Some? ==> (item.Some? <==> exists i :: 0 <= i < |s| && s[i].key == r.cached.value))
    && (r.cached.Some? && item.Some? ==> item.value.key == r.cached.value)
    && (r.cached.None? ==> item == Resolve(mode, r.stored, s))
  }

  /** The item `getItem()` returns. Its caching side effect is `Cache`. */
  function Get<T>(mode: Addressing, r: Ref, s: Section<T>): (item: Option<Item<T>>)
    ensures Fetched(mode, r, s, item)
  {
    match r.cached
    case Some(k) =>
      (match FindKey(s, k)
       case None => None
       case Some(i) => Some(s[i]))
    case None => Resolve(mode, r.stored, s)
  }

  /** The caching side effect of `getItem()`: an empty cache is filled from the stored integer;
      the stored integer is never written. */
  function Cache<T>(mode: Addressing, r: Ref, s: Section<T>): (c: Ref)
    ensures c.stored == r.stored
    ensures r.cached.Some? ==> c == r
    ensures r.cached.None? ==> (c.cached.Some? <==> Resolve(mode, r.stored, s).Some?)
    ensures Get(mode, r, s).Some? ==> c.cached == Some(Get(mode, r, s).value.key)
    ensures Get(mode, r, s).None? ==> c == r
  {
    if r.cached.Some? then r
    else match Resolve(mode, r.stored, s)
      case None => r
      case Some(item) => Ref(r.stored, Some(item.key))
  }

  /** `setItem(x)`: store the target's current index or offset and cache it; `null` stores
      the absent sentinel and clears the cache. */
  function Set<T>(mode: Addressing, x: Option<Item<T>>, s: Section<T>): (r: Ref)
    requires x.Some? ==> x.value in s
    ensures x.None? ==> r.stored == Absent(mode) && r.cached.None?
    ensures x.Some? ==> r.cached == Some(x.value.key)
    ensures x.Some? && mode == ByIndex ==> 0 <= r.stored < |s| && s[r.stored].key == x.value.key
    ensures x.Some? && mode == ByOffset ==> r.stored == x.value.offset
    ensures WellFormed(s) ==> IsInt32(r.stored)
  {
    match x
    case None => Ref(Absent(mode), None)
    case Some(item) =>
      var stored := if mode == ByIndex then FindKey(s, item.key).value else item.offset;
      Ref(stored, Some(item.key))
  }

  /** `refresh()`: rewrite the stored integer from the target's live position. */
  function Refresh<T>(mode: Addressing, r: Ref, s: Section<T>): (c: Ref)
    ensures Get(mode, r, s).None? ==> c.stored == Absent(mode) && c.cached.None?
    ensures Get(mode, r, s).Some? ==> c.cached == Some(Get(mode, r, s).value.key)
    ensures WellFormed(s) ==> IsInt32(c.stored)
  {
    Set(mode, Get(mode, r, s), s)
  }

  /** In a well-formed section a record is determined by its identity, and by its offset. */
  lemma UniqueInSection<T>(s: Section<T>, a: Item<T>, b: Item<T>)
    requires WellFormed(s) && a in s && b in s
    ensures a.key == b.key ==> a == b
    ensures a.offset == b.offset ==> a == b
  {
    var i :| 0 <= i < |s| && s[i] == a;
    var j :| 0 <= j < |s| && s[j] == b;
    if i < j {
      assert s[i].key != s[j].key && s[i].offset != s[j].offset;
    } else if j < i {
      assert s[j].key != s[i].key && s[j].offset != s[i].offset;
    }
  }

  /** After `setItem(x)`, `getItem()` returns exactly x, and for an index reference the
      stored integer is x's index. */
  lemma SetThenGet<T>(mode: Addressing, x: Option<Item<T>>, s: Section<T>)
    requires x.Some? ==> x.value in s
    ensures WellFormed(s) ==> Get(mode, Set(mode, x, s), s) == x
    ensures WellFormed(s) && x.Some? && mode == ByIndex ==> s[Set(mode, x, s).stored] == x.value
  {
    var r := Set(mode, x, s);
    if x.Some? && WellFormed(s) {
      var i := FindKey(s, x.value.key).value;
      UniqueInSection(s, s[i], x.value);
      if mode == ByIndex {
        UniqueInSection(s, s[r.stored], x.value);
      }
    }
  }

  /** Refresh never changes what a reference resolves to. */
  lemma RefreshKeepsTarget<T>(mode: Addressing, r: Ref, s: Section<T>)
    requires WellFormed(s)
    ensures Get(mode, Refresh(mode, r, s), s) == Get(mode, r, s)
  {
    SetThenGet(mode, Get(mode, r, s), s);
  }

  /** After refresh the stored integer alone (as a re-read record would see it) resolves to
      the same target as the reference did. */
  lemma RefreshRestamps<T>(mode: Addressing, r: Ref, s: Section<T>)
    requires WellFormed(s)
    ensures Resolve(mode, Refresh(mode, r, s).stored, s) == Get(mode, r, s)
  {
    var g := Get(mode, r, s);
    var c := Refresh(mode, r, s);
    if g.Some? {
      var res := Resolve(mode, c.stored, s);
      if mode == ByIndex {
        UniqueInSection(s, s[c.stored], g.value);
      } else {
        var i :| 0 <= i < |s| && s[i] == g.value;
        assert s[i].offset == c.stored;
        UniqueInSection(s, res.value, g.value);
      }
    }
  }

  /** Refreshing twice with no change in between is the same as refreshing once. */
  lemma RefreshIdempotent<T>(mode: Addressing, r: Ref, s: Section<T>)
    requires WellFormed(s)
    ensures Refresh(mode, Refresh(mode, r, s), s) == Refresh(mode, r, s)
  {
    RefreshKeepsTarget(mode, r, s);
  }

  /** A reference whose cached target has been removed refreshes to the absent sentinel and
      resolves to nothing, never to whatever record now sits at the old position. */
  lemma RefreshForgetsRemoved<T>(mode: Addressing, r: Ref, s: Section<T>)
    requires r.cached.Some?
    requires forall i :: 0 <= i < |s| ==> s[i].key != r.cached.value
    ensures Refresh(mode, r, s) == Ref(Absent(mode), None)
    ensures Get(mode, Refresh(mode, r, s), s).None?
  {
  }

  /** Caching a reference changes neither its stored integer nor its target. */
  lemma CacheKeepsTarget<T>(mode: Addressing, r: Ref, s: Section<T>)
    requires WellFormed(s)
    ensures Cache(mode, r, s).stored == r.stored
    ensures Get(mode, Cache(mode, r, s), s) == Get(mode, r, s)
  {
    var res := Resolve(mode, r.stored, s);
    if r.cached.None? && res.Some? {
      var i := FindKey(s, res.value.key).value;
      UniqueInSection(s, s[i], res.value);
    }
  }

  /** Once `getItem()` has cached its answer, the reference follows that record rather than a
      position: in any later state of the section it finds that record or nothing, never
      another one. */
  lemma CacheFollowsItem<T>(mode: Addressing, r: Ref, s: Section<T>, later: Section<T>)
    requires Get(mode, r, s).Some?
    ensures Get(mode, Cache(mode, r, s), later).Some? ==>
      Get(mode, Cache(mode, r, s), later).value.key == Get(mode, r, s).value.key
  {
  }

  /** An index reference to position 0 of `[a]`, read once, still finds `a` after `x` is
      inserted in front of it; the same reference never read finds `x` there instead. */
  lemma CacheFollowsItemExample()
    ensures var a := Item(1, 8, "a");
      var x := Item(2, 12, "x");
      && Get(ByIndex, Cache(ByIndex, Parsed(0), [a]), [x, a]) == Some(a)
      && Get(ByIndex, Parsed(0), [x, a]) == Some(x)
  {
    var a := Item(1, 8, "a");
    var x := Item(2, 12, "x");
    assert [x, a][1] == a;
  }
}

=== FILE: words.dfy ===
/** Fixed-width integers as the DEX format stores them, and Java's decimal rendering of an int. */
module Words {

  type byte = x: int | 0 <= x < 256

  const Two32: int := 0x1_0000_0000
  const Int32Min: int := -0x8000_0000
  const Int32Max: int := 0x7fff_ffff

  /** True when `v` fits a Java `int`. */
  predicate IsInt32(v: int) {
    Int32Min <= v <= Int32Max
  }

  /** The four little-endian bytes of the 32-bit two's-complement form of `v`
      (Dafny's `%` is Euclidean, so `v % Two32` is exactly that form). */
  function Word(v: int): (bs: seq<byte>)
    ensures |bs| == 4
  {
    var u := v % Two32;
    var q1 := u / 256;
    var q2 := q1 / 256;
    var q3 := q2 / 256;
    [u % 256, q1 % 256, q2 % 256, q3 % 256]
  }

  /** Reads a little-endian 32-bit word back as a signed Java `int`. */
  function ReadWord(bs: seq<byte>): (v: int)
    requires |bs| == 4
    ensures IsInt32(v)
  {
    var u: int := bs[0] as int + 256 * bs[1] as int + 65536 * bs[2] as int + 16777216 * bs[3] as int;
    if u > Int32Max then u - Two32 else u
  }

  /** The low byte and the rest of a natural number, as `%` and `/` give them. */
  lemma DivMod256(x: int)
    requires x >= 0
    ensures 0 <= x % 256 < 256 && x / 256 >= 0 && x == x % 256 + 256 * (x / 256)
  {
  }

  lemma WordRoundTrip(v: int)
    requires IsInt32(v)
    ensures ReadWord(Word(v)) == v
  {
    var u := v % Two32;
    var q1 := u / 256;
    var q2 := q1 / 256;
    var q3 := q2 / 256;
    assert Word(v) == [u % 256, q1 % 256, q2 % 256, q3 % 256];
    assert u == if v < 0 then v + Two32 else v;
    DivMod256(u);
    DivMod256(q1);
    DivMod256(q2);
    assert q1 < 16777216 && q2 < 65536 && q3 < 256;
    ByteSplit(q3, q3, 0);
    var w: int := u % 256 + 256 * (q1 % 256) + 65536 * (q2 % 256) + 16777216 * q3;
    assert w == u;
  }

  /** Splitting a number into its low byte and the rest is what `% 256` and `/ 256` do. */
  lemma ByteSplit(x: int, lo: int, hi: int)
    requires 0 <= lo < 256 && x == lo + 256 * hi
    ensures x % 256 == lo && x / 256 == hi
  {
  }

  lemma ReadWordRoundTrip(bs: seq<byte>)
    requires |bs| == 4
    ensures Word(ReadWord(bs)) == bs
  {
    var b0, b1, b2, b3: int := bs[0], bs[1], bs[2], bs[3];
    var u := b0 + 256 * (b1 + 256 * (b2 + 256 * b3));
    assert u == b0 + 256 * b1 + 65536 * b2 + 16777216 * b3;
    assert 0 <= u < Two32;
    assert ReadWord(bs) % Two32 == u;
    ByteSplit(u, b0, b1 + 256 * (b2 + 256 * b3));
    ByteSplit(b1 + 256 * (b2 + 256 * b3), b1, b2 + 256 * b3);
    ByteSplit(b2 + 256 * b3, b2, b3);
    ByteSplit(b3, b3, 0);
  }

  /** The character of a decimal digit. */
  function DigitChar(d: nat): char
    requires d < 10
  {
    "0123456789"[d]
  }

  predicate IsDigit(c: char) {
    '0' <= c <= '9'
  }

  /** Decimal digits of a natural number, without leading zeros. */
  function Digits(n: nat): (s: string)
    ensures |s| > 0
    ensures forall i :: 0 <= i < |s| ==> IsDigit(s[i])
  {
    if n < 10 then [DigitChar(n)] else Digits(n / 10) + [DigitChar(n % 10)]
  }

  /** Value of a non-empty digit string, read most-significant digit first. */
  function DigitsValue(s: string): int
    requires forall i :: 0 <= i < |s| ==> IsDigit(s[i])
  {
    if |s| == 0 then 0
    else DigitsValue(s[..|s| - 1]) * 10 + (s[|s| - 1] as int - '0' as int)
  }

  /** Java's `Integer.toString`: optional minus sign followed by the digits of the magnitude. */
  function DecimalString(n: int): (s: string)
    ensures |s| > 0
  {
    if n < 0 then "-" + Digits(-n) else Digits(n)
  }

  /** True of the strings `DecimalString` can produce the shape of: an optional '-' then digits. */
  predicate IsDecimal(s: string) {
    if |s| > 0 && s[0] == '-' then |s| > 1 && forall i :: 1 <= i < |s| ==> IsDigit(s[i])
    else |s| > 0 && forall i :: 0 <= i < |s| ==> IsDigit(s[i])
  }

  /** Reads a decimal string back (the inverse of `DecimalString`). */
  function DecimalValue(s: string): int
    requires IsDecimal(s)
  {
    if s[0] == '-' then -DigitsValue(s[1..]) else DigitsValue(s)
  }

  lemma {:induction false} DigitsRoundTrip(n: nat)
    ensures DigitsValue(Digits(n)) == n
  {
    if n >= 10 {
      var s := Digits(n);
      assert s[..|s| - 1] == Digits(n / 10);
      DigitsRoundTrip(n / 10);
      assert s[|s| - 1] == DigitChar(n % 10);
      assert DigitChar(n % 10) as int - '0' as int == n % 10;
    } else {
      assert DigitChar(n) as int - '0' as int == n;
    }
  }

  /** Java's decimal text of an int reads back as that int. */
  lemma DecimalRoundTrip(n: int)
    ensures IsDecimal(DecimalString(n))
    ensures DecimalValue(DecimalString(n)) == n
  {
    if n < 0 {
      var s := DecimalString(n);
      assert s[1..] == Digits(-n);
      DigitsRoundTrip(-n);
    } else {
      DigitsRoundTrip(n);
    }
  }
}

=== FILE: wrappers.dfy ===
/** Failure-compatible wrappers used in place of Java's null and thrown exceptions. */
module Wrappers {

  /** `None` stands for a Java `null` result. */
  datatype Option<+T> = None | Some(value: T)

  /** `Failure` stands for an exception the Java code throws. */
  datatype Result<+R, +E> = Success(value: R) | Failure(error: E)
}

=== FILE: xml_namespace.dfy ===
/** Paired XML namespace declarations: the start- and end-namespace chunks of Android binary
    XML are twinned so that their prefix and uri string references stay equal. Twins are keys
    into an arena of declarations rather than object references. */
module XmlNamespace {
  import opened Wrappers

  type NsId = nat

  /** One namespace chunk: its uri and prefix string-pool references and its twin. */
  datatype Namespace = Namespace(uriRef: int, prefixRef: int, pair: Option<NsId>)

  type Arena = map<NsId, Namespace>

  /** The two propagated string references. */
  datatype RefField = Uri | Prefix

  function FieldOf(ns: Namespace, f: RefField): int {
    match f
    case Uri => ns.uriRef
    case Prefix => ns.prefixRef
  }

  function Other(f: RefField): RefField {
    match f
    case Uri => Prefix
    case Prefix => Uri
  }

  function WithField(ns: Namespace, f: RefField, v: int): (r: Namespace)
    ensures FieldOf(r, f) == v && FieldOf(r, Other(f)) == FieldOf(ns, Other(f)) && r.pair == ns.pair
  {
    match f
    case Uri => ns.(uriRef := v)
    case Prefix => ns.(prefixRef := v)
  }

  /** Every twin link points at a declaration that exists (a Java reference is never dangling). */
  predicate Closed(arena: Arena) {
    forall id :: id in arena && arena[id].pair.Some? ==> arena[id].pair.value in arena
  }

  /** Every twin link is reciprocated. */
  predicate Symmetric(arena: Arena) {
    forall id :: id in arena && arena[id].pair.Some? ==>
      arena[id].pair.value in arena && arena[arena[id].pair.value].pair == Some(id)
  }

  /** Twinned declarations carry the same uri and prefix references. */
  predicate Consistent(arena: Arena) {
    forall id :: id in arena && arena[id].pair.Some? && arena[id].pair.value in arena ==>
      arena[arena[id].pair.value].uriRef == arena[id].uriRef
      && arena[arena[id].pair.value].prefixRef == arena[id].prefixRef
  }

  // ---------------------------------------------------------------- twin link

  /** `getPair()`; in a symmetric arena the twin links back. */
  function GetPair(arena: Arena, a: NsId): (r: Option<NsId>)
    requires a in arena
    ensures Symmetric(arena) && r.Some? ==> r.value in arena && arena[r.value].pair == Some(a)
  {
    arena[a].pair
  }

  /** `setPair(pair)`: pairing with yourself does nothing; otherwise the link is set, and the
      twin is linked back unless it already points here. The recursive call stops because the
      caller's own link already points at the twin. Nothing but the two links changes. */
  function SetPair(arena: Arena, a: NsId, b: Option<NsId>): (r: Arena)
    requires a in arena && (b.Some? ==> b.value in arena)
    ensures b == Some(a) ==> r == arena
    ensures b.None? ==> r == arena[a := arena[a].(pair := None)]
    ensures b.Some? && b.value != a ==> r.Keys == arena.Keys && r[a].pair == b && r[b.value].pair == Some(a)
    ensures forall id :: id in arena && id != a && Some(id) != b ==> id in r && r[id] == arena[id]
    ensures forall id :: id in arena ==> id in r && r[id].uriRef == arena[id].uriRef && r[id].prefixRef == arena[id].prefixRef
    decreases if b.Some? && b.value != a && arena[b.value].pair != Some(a) then 1 else 0
  {
    if b == Some(a) then arena
    else
      var linked := arena[a := arena[a].(pair := b)];
      if b.Some? && linked[b.value].pair != Some(a) then SetPair(linked, b.value, Some(a))
      else linked
  }

  // ---------------------------------------------------------------- propagating writes

  /** Declarations whose field `f` does not yet hold `v`. */
  function Pending(arena: Arena, f: RefField, v: int): set<NsId> {
    set id | id in arena && FieldOf(arena[id], f) != v
  }

  /** The arena after the local write of `setUriReference` / `setPrefixReference`. */
  function WriteLocal(arena: Arena, a: NsId, f: RefField, v: int): Arena
    requires a in arena
  {
    arena[a := WithField(arena[a], f, v)]
  }

  /** Whether the write moves on from `a`: its twin exists and does not yet hold the value. */
  predicate MovesOn(arena: Arena, a: NsId, f: RefField, v: int)
    requires a in arena && Closed(arena)
  {
    var p := arena[a].pair;
    p.Some? && FieldOf(WriteLocal(arena, a, f, v)[p.value], f) != v
  }

  /** Writing the value at `a` settles `a` and nothing else, so the measure of a propagating
      write drops whenever it moves on. */
  lemma PendingShrinks(arena: Arena, a: NsId, f: RefField, v: int)
    requires a in arena
    ensures |Pending(WriteLocal(arena, a, f, v), f, v)| + 1
            <= |Pending(arena, f, v)| + (if FieldOf(arena[a], f) == v then 1 else 0)
  {
    assert Pending(WriteLocal(arena, a, f, v), f, v) == Pending(arena, f, v) - {a};
    if FieldOf(arena[a], f) != v {
      assert a in Pending(arena, f, v);
    }
  }

  /** The declarations a propagating write from `a` writes, in order: `a`, then its twin if the
      twin's value differs, and so on. */
  function Chain(arena: Arena, a: NsId, f: RefField, v: int): (w: seq<NsId>)
    requires a in arena && Closed(arena)
    ensures |w| >= 1 && w[0] == a
    decreases |Pending(arena, f, v)| + (if FieldOf(arena[a], f) == v then 1 else 0)
  {
    PendingShrinks(arena, a, f, v);
    if MovesOn(arena, a, f, v) then [a] + Chain(WriteLocal(arena, a, f, v), arena[a].pair.value, f, v)
    else [a]
  }

  /** `setUriReference` / `setPrefixReference` on field `f`: write locally, then continue at the
      twin only if the twin's value differs. Exactly the declarations of the chain end up
      holding `v`, in particular `a` and its twin; every other declaration, every twin link and
      the other field are left as they were. */
  function Propagate(arena: Arena, a: NsId, f: RefField, v: int): (r: Arena)
    requires a in arena && Closed(arena)
    ensures r.Keys == arena.Keys
    ensures forall id :: id in arena && id in Chain(arena, a, f, v) ==> FieldOf(r[id], f) == v
    ensures forall id :: id in arena && id !in Chain(arena, a, f, v) ==> r[id] == arena[id]
    ensures forall id :: id in arena ==>
      r[id].pair == arena[id].pair && FieldOf(r[id], Other(f)) == FieldOf(arena[id], Other(f))
    ensures arena[a].pair.Some? ==> FieldOf(r[arena[a].pair.value], f) == v
    decreases |Pending(arena, f, v)| + (if FieldOf(arena[a], f) == v then 1 else 0)
  {
    PendingShrinks(arena, a, f, v);
    var written := WriteLocal(arena, a, f, v);
    if MovesOn(arena, a, f, v) then Propagate(written, arena[a].pair.value, f, v)
    else written
  }

  /** Every declaration of the chain `w` after the first did not hold the value beforehand. */
  predicate WrotePending(arena: Arena, a: NsId, w: seq<NsId>, f: RefField, v: int) {
    forall i :: 1 <= i < |w| ==> w[i] in arena && w[i] != a && FieldOf(arena[w[i]], f) != v
  }

  predicate Distinct(w: seq<NsId>) {
    forall i, j :: 0 <= i < j < |w| ==> w[i] != w[j]
  }

  /** Every declaration after the first is written only because it did not yet hold the value. */
  lemma {:induction false} ChainWritesPending(arena: Arena, a: NsId, f: RefField, v: int)
    requires a in arena && Closed(arena)
    ensures WrotePending(arena, a, Chain(arena, a, f, v), f, v)
    decreases |Pending(arena, f, v)| + (if FieldOf(arena[a], f) == v then 1 else 0)
  {
    PendingShrinks(arena, a, f, v);
    if MovesOn(arena, a, f, v) {
      var written := WriteLocal(arena, a, f, v);
      var b := arena[a].pair.value;
      ChainWritesPending(written, b, f, v);
      var rest := Chain(written, b, f, v);
      assert WrotePending(written, b, rest, f, v);
      assert Chain(arena, a, f, v) == [a] + rest;
      forall i | 0 <= i < |rest|
        ensures rest[i] != a && rest[i] in arena && FieldOf(arena[rest[i]], f) != v
      {
        if i == 0 {
          assert rest[0] == b;
        } else {
          assert rest[i] in written && FieldOf(written[rest[i]], f) != v;
        }
      }
    }
  }

  /** Each declaration of the chain `w` links to the next one. */
  predicate FollowsLinks(arena: Arena, w: seq<NsId>) {
    forall j :: 0 <= j < |w| - 1 ==> w[j] in arena && arena[w[j]].pair == Some(w[j + 1])
  }

  /** A propagating write moves only along twin links: each declaration it writes after the
      first is the twin of the one written before it. */
  lemma {:induction false} ChainFollowsLinks(arena: Arena, a: NsId, f: RefField, v: int)
    requires a in arena && Closed(arena)
    ensures FollowsLinks(arena, Chain(arena, a, f, v))
    decreases |Pending(arena, f, v)| + (if FieldOf(arena[a], f) == v then 1 else 0)
  {
    PendingShrinks(arena, a, f, v);
    if MovesOn(arena, a, f, v) {
      var written := WriteLocal(arena, a, f, v);
      var b := arena[a].pair.value;
      ChainFollowsLinks(written, b, f, v);
      var rest := Chain(written, b, f, v);
      var w := Chain(arena, a, f, v);
      assert w == [a] + rest;
      forall j | 0 <= j < |w| - 1 ensures w[j] in arena && arena[w[j]].pair == Some(w[j + 1]) {
        if j > 0 {
          assert w[j] == rest[j - 1] && w[j + 1] == rest[j];
          assert written[rest[j - 1]].pair == Some(rest[j]);
        }
      }
    }
  }

  /** No declaration is written twice. */
  lemma {:induction false} ChainDistinct(arena: Arena, a: NsId, f: RefField, v: int)
    requires a in arena && Closed(arena)
    ensures Distinct(Chain(arena, a, f, v))
    decreases |Pending(arena, f, v)| + (if FieldOf(arena[a], f) == v then 1 else 0)
  {
    PendingShrinks(arena, a, f, v);
    if MovesOn(arena, a, f, v) {
      var written := WriteLocal(arena, a, f, v);
      var b := arena[a].pair.value;
      ChainDistinct(written, b, f, v);
      ChainWritesPending(arena, a, f, v);
      var rest := Chain(written, b, f, v);
      var w := Chain(arena, a, f, v);
      assert Distinct(rest) && WrotePending(arena, a, w, f, v);
      assert w == [a] + rest;
      forall i | 0 <= i < |rest| ensures rest[i] != a {
        assert rest[i] == w[i + 1];
      }
      ConsDistinct(a, rest);
    }
  }

  lemma ConsDistinct(a: NsId, rest: seq<NsId>)
    requires Distinct(rest)
    requires forall i :: 0 <= i < |rest| ==> rest[i] != a
    ensures Distinct([a] + rest)
  {
    var w := [a] + rest;
    forall i, j | 0 <= i < j < |w| ensures w[i] != w[j] {
      assert w[j] == rest[j - 1];
      if i > 0 { assert w[i] == rest[i - 1]; }
    }
  }

  /** The chain of writes is no longer than the arena: each declaration is written at most once. */
  lemma ChainBounded(arena: Arena, a: NsId, f: RefField, v: int)
    requires a in arena && Closed(arena)
    ensures |Chain(arena, a, f, v)| <= |arena.Keys|
  {
    ChainDistinct(arena, a, f, v);
    ChainWritesPending(arena, a, f, v);
    var w := Chain(arena, a, f, v);
    assert WrotePending(arena, a, w, f, v);
    forall x | x in w ensures x in arena.Keys {
      var k :| 0 <= k < |w| && w[k] == x;
    }
    SeqDistinctBound(w, arena.Keys);
  }

  /** A repeat-free sequence drawn from a finite set is no longer than the set. */
  lemma {:induction false} SeqDistinctBound(w: seq<NsId>, keys: set<NsId>)
    requires Distinct(w)
    requires forall x :: x in w ==> x in keys
    ensures |w| <= |keys|
    decreases |w|
  {
    if |w| > 0 {
      var last := w[|w| - 1];
      forall x | x in w[..|w| - 1] ensures x in keys - {last} {
        var k :| 0 <= k < |w| - 1 && w[k] == x;
      }
      SeqDistinctBound(w[..|w| - 1], keys - {last});
    }
  }

  /** `setUriReference(ref)`. */
  function SetUriReference(arena: Arena, a: NsId, ref: int): (r: Arena)
    requires a in arena && Closed(arena)
    ensures r.Keys == arena.Keys && r[a].uriRef == ref
    ensures arena[a].pair.Some? ==> r[arena[a].pair.value].uriRef == ref
    ensures forall id :: id in arena ==> r[id].prefixRef == arena[id].prefixRef && r[id].pair == arena[id].pair
    ensures Symmetric(arena) ==> forall id :: id in arena && id != a && Some(id) != arena[a].pair ==> r[id] == arena[id]
  {
    if Symmetric(arena) then ChainOneHop(arena, a, Uri, ref); Propagate(arena, a, Uri, ref)
    else Propagate(arena, a, Uri, ref)
  }

  /** `setPrefixReference(ref)`. */
  function SetPrefixReference(arena: Arena, a: NsId, ref: int): (r: Arena)
    requires a in arena && Closed(arena)
    ensures r.Keys == arena.Keys && r[a].prefixRef == ref
    ensures arena[a].pair.Some? ==> r[arena[a].pair.value].prefixRef == ref
    ensures forall id :: id in arena ==> r[id].uriRef == arena[id].uriRef && r[id].pair == arena[id].pair
    ensures Symmetric(arena) ==> forall id :: id in arena && id != a && Some(id) != arena[a].pair ==> r[id] == arena[id]
  {
    if Symmetric(arena) then ChainOneHop(arena, a, Prefix, ref); Propagate(arena, a, Prefix, ref)
    else Propagate(arena, a, Prefix, ref)
  }

  /** On a symmetric pair the write reaches the twin in at most one hop and nobody else. */
  lemma ChainOneHop(arena: Arena, a: NsId, f: RefField, v: int)
    requires a in arena && Closed(arena) && Symmetric(arena)
    ensures arena[a].pair.None? ==> Chain(arena, a, f, v) == [a]
    ensures arena[a].pair.Some? ==>
      Chain(arena, a, f, v) == [a] || Chain(arena, a, f, v) == [a, arena[a].pair.value]
  {
    if MovesOn(arena, a, f, v) {
      var b := arena[a].pair.value;
      var written := WriteLocal(arena, a, f, v);
      assert written[b].pair == Some(a);
      assert !MovesOn(written, b, f, v);
      assert Chain(written, b, f, v) == [b];
    }
  }

  /** A propagating write on a symmetric, consistent arena keeps it symmetric and consistent. */
  lemma PropagatePreservesConsistency(arena: Arena, a: NsId, f: RefField, v: int)
    requires a in arena && Closed(arena) && Symmetric(arena) && Consistent(arena)
    ensures Symmetric(Propagate(arena, a, f, v))
    ensures Consistent(Propagate(arena, a, f, v))
  {
    var r := Propagate(arena, a, f, v);
    var w := Chain(arena, a, f, v);
    ChainOneHop(arena, a, f, v);
    forall id | id in r && r[id].pair.Some?
      ensures r[id].pair.value in r
      ensures r[r[id].pair.value].uriRef == r[id].uriRef
      ensures r[r[id].pair.value].prefixRef == r[id].prefixRef
    {
      var q := arena[id].pair.value;
      assert arena[q].pair == Some(id);
      if arena[a].pair.Some? && (id == a || id == arena[a].pair.value) {
        assert FieldOf(r[a], f) == v && FieldOf(r[arena[a].pair.value], f) == v;
      } else {
        assert id !in w && q !in w;
      }
    }
  }

  // ---------------------------------------------------------------- string-level accessors

  /** The string pool's lookup of a reference: the string at that index, or null. */
  function StringAt(pool: seq<string>, ref: int): Option<string> {
    if 0 <= ref < |pool| then Some(pool[ref]) else None
  }

  /** `getUri()` reads only the local uri reference. */
  function GetUri(arena: Arena, a: NsId, pool: seq<string>): (r: Option<string>)
    requires a in arena
    ensures r.Some? <==> 0 <= arena[a].uriRef < |pool|
    ensures r.Some? ==> r.value == pool[arena[a].uriRef]
  {
    StringAt(pool, arena[a].uriRef)
  }

  /** `getPrefix()` reads only the local prefix reference. */
  function GetPrefix(arena: Arena, a: NsId, pool: seq<string>): (r: Option<string>)
    requires a in arena
    ensures r.Some? <==> 0 <= arena[a].prefixRef < |pool|
    ensures r.Some? ==> r.value == pool[arena[a].prefixRef]
  {
    StringAt(pool, arena[a].prefixRef)
  }

  /** The reads consult nothing but the declaration's own reference: an arena that agrees on
      that one reference, whatever its links, its other field or its twin hold, reads the same. */
  lemma ReadsAreLocal(arena: Arena, other: Arena, a: NsId, pool: seq<string>)
    requires a in arena && a in other
    ensures other[a].uriRef == arena[a].uriRef ==> GetUri(other, a, pool) == GetUri(arena, a, pool)
    ensures other[a].prefixRef == arena[a].prefixRef ==> GetPrefix(other, a, pool) == GetPrefix(arena, a, pool)
  {
  }

  datatype XmlError = IllegalArgument(message: string)

  const NullStringMessage: string := "Null ResXmlString, add to parent element first"

  /** `setUri(uri)`. The string pool's `getOrCreateString(uri)` is not part of this model: its
      answer (the index of the string, or null) is the parameter `interned`. */
  function SetUri(arena: Arena, a: NsId, interned: Option<nat>): (r: Result<Arena, XmlError>)
    requires a in arena && Closed(arena)
    ensures r.Failure? <==> interned.None?
    ensures r.Failure? ==> r.error == IllegalArgument(NullStringMessage)
    ensures r.Success? ==> r.value == SetUriReference(arena, a, interned.value)
  {
    match interned
    case None => Failure(IllegalArgument(NullStringMessage))
    case Some(i) => Success(SetUriReference(arena, a, i))
  }

  /** `setPrefix(prefix)`, with the pool's answer as parameter as for `SetUri`. */
  function SetPrefix(arena: Arena, a: NsId, interned: Option<nat>): (r: Result<Arena, XmlError>)
    requires a in arena && Closed(arena)
    ensures r.Failure? <==> interned.None?
    ensures r.Failure? ==> r.error == IllegalArgument(NullStringMessage)
    ensures r.Success? ==> r.value == SetPrefixReference(arena, a, interned.value)
  {
    match interned
    case None => Failure(IllegalArgument(NullStringMessage))
    case Some(i) => Success(SetPrefixReference(arena, a, i))
  }

  /** When the pool answers with the index of the requested string, both the declaration and
      its twin read that string back. */
  lemma SetUriThenGetUri(arena: Arena, a: NsId, pool: seq<string>, uri: string, i: nat)
    requires a in arena && Closed(arena)
    requires i < |pool| && pool[i] == uri
    ensures SetUri(arena, a, Some(i)).Success?
    ensures GetUri(SetUri(arena, a, Some(i)).value, a, pool) == Some(uri)
    ensures arena[a].pair.Some? ==> GetUri(SetUri(arena, a, Some(i)).value, arena[a].pair.value, pool) == Some(uri)
  {
  }

  lemma SetPrefixThenGetPrefix(arena: Arena, a: NsId, pool: seq<string>, prefix: string, i: nat)
    requires a in arena && Closed(arena)
    requires i < |pool| && pool[i] == prefix
    ensures SetPrefix(arena, a, Some(i)).Success?
    ensures GetPrefix(SetPrefix(arena, a, Some(i)).value, a, pool) == Some(prefix)
    ensures arena[a].pair.Some? ==> GetPrefix(SetPrefix(arena, a, Some(i)).value, arena[a].pair.value, pool) == Some(prefix)
  {
  }

  // ---------------------------------------------------------------- text form

  /** `toString()`: the `xmlns` declaration, or the chunk's generic text (not part of this
      model) when the uri does not resolve. */
  datatype NsText = Declaration(text: string) | ChunkText

  /** Java's string conversion of a possibly-null string. */
  function OrNull(s: Option<string>): string {
    match s
    case Some(x) => x
    case None => "null"
  }

  function ToString(arena: Arena, a: NsId, pool: seq<string>): (r: NsText)
    requires a in arena
    ensures r.Declaration? <==> GetUri(arena, a, pool).Some?
    ensures r.Declaration? ==> |r.text| > 6 && r.text[..6] == "xmlns:"
  {
    match GetUri(arena, a, pool)
    case None => ChunkText
    case Some(uri) => Declaration("xmlns:" + OrNull(GetPrefix(arena, a, pool)) + "=\"" + uri + "\"")
  }

  /** The declaration text exists exactly when the uri resolves, and the prefix and uri can be
      cut back out of it. */
  lemma ToStringDeclaration(arena: Arena, a: NsId, pool: seq<string>)
    requires a in arena
    ensures ToString(arena, a, pool).Declaration? <==> GetUri(arena, a, pool).Some?
    ensures GetUri(arena, a, pool).Some? ==>
      var t := ToString(arena, a, pool).text;
      var p := OrNull(GetPrefix(arena, a, pool));
      var u := GetUri(arena, a, pool).value;
      && |t| == 6 + |p| + 2 + |u| + 1
      && t[..6] == "xmlns:" && t[6..6 + |p|] == p && t[6 + |p|..8 + |p|] == "=\""
      && t[8 + |p|..|t| - 1] == u && t[|t| - 1] == '"'
  {
  }

  /** Twins in a consistent arena render the same declaration. */
  lemma TwinsRenderAlike(arena: Arena, a: NsId, pool: seq<string>)
    requires a in arena && Consistent(arena)
    requires arena[a].pair.Some? && arena[a].pair.value in arena
    ensures ToString(arena, arena[a].pair.value, pool) == ToString(arena, a, pool)
  {
  }

  // ---------------------------------------------------------------- link scenarios

  /** Pairing two unlinked declarations makes them mutual twins and keeps the arena symmetric. */
  lemma SetPairLinksUnpaired(arena: Arena, a: NsId, b: NsId)
    requires a in arena && b in arena && a != b
    requires arena[a].pair.None? && arena[b].pair.None?
    requires Symmetric(arena)
    ensures var r := SetPair(arena, a, Some(b));
      GetPair(r, a) == Some(b) && GetPair(r, b) == Some(a) && Symmetric(r)
  {
    var r := SetPair(arena, a, Some(b));
    forall id | id in r && r[id].pair.Some?
      ensures r[id].pair.value in r && r[r[id].pair.value].pair == Some(id)
    {
      if id != a && id != b {
        var q := arena[id].pair.value;
        assert arena[q].pair == Some(id);
        assert q != a && q != b;
      }
    }
  }

  /** Clearing a link leaves the former twin's back-link in place: the relation becomes
      one-sided. */
  lemma ClearLeavesBackLink(arena: Arena, a: NsId)
    requires a in arena && arena[a].pair.Some? && arena[a].pair.value != a && arena[a].pair.value in arena
    ensures var r := SetPair(arena, a, None);
      && GetPair(r, a).None?
      && GetPair(r, arena[a].pair.value) == arena[arena[a].pair.value].pair
  {
  }

  /** `a.setPair(b)` when `b` is already the twin of `c`: `b` now links to `a`, but `c` keeps
      its link to `b`, so the links are no longer reciprocated. */
  lemma SetPairLeavesOldTwin(arena: Arena, a: NsId, b: NsId, c: NsId)
    requires a in arena && b in arena && c in arena
    requires a != b && b != c && c != a
    requires arena[b].pair == Some(c) && arena[c].pair == Some(b)
    ensures var r := SetPair(arena, a, Some(b));
      && r[a].pair == Some(b) && r[b].pair == Some(a) && r[c].pair == Some(b)
      && !Symmetric(r)
  {
    var r := SetPair(arena, a, Some(b));
    assert c in r && r[c].pair.Some? && r[r[c].pair.value].pair != Some(c);
  }

  /** Arena {0 unpaired, 1 <-> 2}: after `setPair` of 0 with 1, chunk 1 links to 0 and chunk 2
      still links to 1. */
  lemma SetPairLeavesOldTwinExample()
    ensures var arena := map[0 := Namespace(0, 0, None), 1 := Namespace(0, 0, Some(2)),
                             2 := Namespace(0, 0, Some(1))];
      var r := SetPair(arena, 0, Some(1));
      && Symmetric(arena) && r[1].pair == Some(0) && r[2].pair == Some(1) && !Symmetric(r)
  {
    var arena := map[0 := Namespace(0, 0, None), 1 := Namespace(0, 0, Some(2)),
                     2 := Namespace(0, 0, Some(1))];
    SetPairLeavesOldTwin(arena, 0, 1, 2);
  }

  /** After the one-sided pairing of `SetPairLeavesOldTwinExample`, a uri write at 2 goes past
      its twin: 2 is written, then its twin 1, then 1's twin 0, whose twin 1 already holds the
      value. */
  lemma OneSidedChainExample()
    ensures var arena := map[0 := Namespace(0, 0, None), 1 := Namespace(0, 0, Some(2)),
                             2 := Namespace(0, 0, Some(1))];
      var r := SetPair(arena, 0, Some(1));
      && Closed(r) && Chain(r, 2, Uri, 7) == [2, 1, 0]
  {
    var arena := map[0 := Namespace(0, 0, None), 1 := Namespace(0, 0, Some(2)),
                     2 := Namespace(0, 0, Some(1))];
    var r := SetPair(arena, 0, Some(1));
    SetPairLeavesOldTwin(arena, 0, 1, 2);
    assert r == map[0 := Namespace(0, 0, Some(1)), 1 := Namespace(0, 0, Some(0)),
                    2 := Namespace(0, 0, Some(1))];
    var r1 := WriteLocal(r, 2, Uri, 7);
    var r2 := WriteLocal(r1, 1, Uri, 7);
    assert MovesOn(r, 2, Uri, 7) && MovesOn(r1, 1, Uri, 7) && !MovesOn(r2, 0, Uri, 7);
    assert Chain(r2, 0, Uri, 7) == [0];
    assert Chain(r1, 1, Uri, 7) == [1, 0];
  }
}
